=== FILE: README.md ===
# Extension binding bridge of godot-dotnet, modelled in Dafny

godot-dotnet lets C# classes extend the Godot engine. This project models four of its pieces.

1. **The binding generator** (`BindMethodsWriter`). For a class declared as a Godot class, it writes C# source into an indented text builder. That source contains:
   - the cached `StringName` classes for the class's method, property and signal names;
   - a `BindMethods` method that registers, in this order, the constructor, every method, every property and every signal with the engine's class database.

   The generator chooses the registration form of each method:
   - static methods use `BindStaticMethod`;
   - virtual methods use `BindVirtualMethod`, with type arguments, or abbreviated when there is nothing to describe;
   - all other methods use `BindMethod`, with a generated thunk lambda.

   It prints `ParameterInfo`, `ReturnInfo` and `PropertyInfo` descriptors. Optional arguments and object-initializer lines appear only when they differ from the defaults, with one exception: a parameter's `None` metadata is still spelled out when an explicit default value follows it.
2. **Constant registration** (`ClassRegistrationContext.BindConstant`). It keeps a set of constant names already bound and a queue of deferred native registrations.
3. **The Summator sample.** A counter class with `Add` (the default argument is 1), `Reset` and `GetTotal`, plus the registration sequence its author wrote by hand.
4. **The generated initialization entry points** (`ClassDBExtensions`). They register the project's classes only when the engine announces the scene level.

The generator is modelled at three levels.
- `BindOps` gives the abstract, ordered stream of registration operations a class specification yields.
- `Descriptors` gives the token lists the generator prints for descriptors, type arguments and thunks. Lemmas show that the generator's piecewise loops spell exactly those token lists joined with commas.
- `GeneratedLayout` states the generated file line by line, each line's indentation and text, without reference to the builder: the prologue, the containing types, the name classes, and one block of lines per registration call of the `BindOps` stream.
- `BindMethodsWriter` writes the text over a model of the indented text builder. The model records finished lines with their indentation, the pending line, the indent counter and the open-block depth. Each writer step is proved to append exactly its part of the `GeneratedLayout` lines and to leave indentation and depth balanced.

Some members are internal steps without rows of their own: `Descriptors.ReturnInfoOf` and `Descriptors.PropertyInfoOf` build the descriptors inside `BindOps.MethodOp` and `BindOps.PropertyOps`; `BindOps.PropertyOp` and `BindOps.SignalOp` are the per-member steps of `PropertyOps` and `SignalOps`; the `GeneratedLayout` lemmas whose names end in `From` reassemble text appended piece by piece into the layout. The sequence lemmas at the end of `text.dfy` are rewriting aids used as proof hints and model nothing in the generator.

The native registration calls are recorded as events: `NativeCall` for constants and `RegistryCall` for classes.

Files: `wrappers.dfy` (Option), `text.dfy` (joining with separators), `indented_text.dfy` (the text builder), `class_spec.dfy` (the class specification), `descriptors.dfy`, `bind_ops.dfy`, `generated_layout.dfy` (the generated file's lines as a function of the class specification), `bind_methods_writer.dfy`, `constant_registration.dfy`, `summator.dfy`, `class_db_extensions.dfy`.

## Model


| member | source | states |
|---|---|---|
| Text.SeparatedLoopIsJoin | src/Godot.SourceGenerators/BindMethodsWriter.cs:153-161 | The "separator after each item unless it is the last and nothing follows" loop writes exactly the items joined with the separator, and leaves a trailing separator exactly when further items follow. |
| Descriptors.InitializerFields | src/Godot.SourceGenerators/BindMethodsWriter.cs:380-407 | The object-initializer lines are one per non-default attribute, carrying that attribute's value, in the order Hint, HintString, Usage, ClassName. There are none, so no initializer is printed, exactly when all four attributes have their defaults. |
| Descriptors.ParameterInfoOf | src/Godot.SourceGenerators/BindMethodsWriter.cs:344-348 | A parameter is described under its override name when that name is non-empty, otherwise under its symbol name. It carries its variant type, metadata and declared default. |
| Descriptors.ParameterInfoArgs | src/Godot.SourceGenerators/BindMethodsWriter.cs:350-362 | The parameter descriptor's arguments are the interned name and the variant type, then the metadata and the default. The metadata appears exactly when it is not None or a default exists; a None metadata is then spelled out. The default appears exactly when one is declared, and it comes last. |
| Descriptors.ParameterInfoArgsAsWrittenIsJoin | src/Godot.SourceGenerators/BindMethodsWriter.cs:350-362 | The generator's piece-by-piece appends spell exactly the token list of `ParameterInfoArgs`, joined with ", ". |
| Descriptors.ReturnInfoArgs | src/Godot.SourceGenerators/BindMethodsWriter.cs:331-340 | A return descriptor holds the variant type, plus the metadata exactly when it is not None. It never holds a default. |
| Descriptors.PropertyInfoArgs | src/Godot.SourceGenerators/BindMethodsWriter.cs:366-376 | A property descriptor names the property through `PropertyName.@symbol`, then gives the variant type, then the metadata exactly when it is not None. |
| Descriptors.TypeArgumentsOf | src/Godot.SourceGenerators/BindMethodsWriter.cs:150-167 | A virtual binding's type arguments are the parameter types in order, followed by the return type when there is one. The count is the number of parameters plus one if there is a return. |
| Descriptors.TypeArgumentsAsWrittenIsJoin | src/Godot.SourceGenerators/BindMethodsWriter.cs:150-167 | The generator's `<...>` loop writes exactly those type arguments joined with ", ". |
| Descriptors.ThunkOf | src/Godot.SourceGenerators/BindMethodsWriter.cs:210-260 | The thunk's parameters are `C __instance` first, except for a static method, and then the declared parameters in order, each as type and `@name`. The body forwards exactly those parameters, in the same order, to the method on `__instance` (on the class for a static method). It returns a value exactly when the method has a return parameter. |
| Descriptors.ThunkHeaderAsWrittenIsJoin | src/Godot.SourceGenerators/BindMethodsWriter.cs:210-232 | The generator's appends for the lambda header spell `static (` + the thunk's parameters joined with ", " + `) =>`. This holds in all four static/parameter cases. |
| Descriptors.ForwardingCallAsWrittenIsJoin | src/Godot.SourceGenerators/BindMethodsWriter.cs:237-257 | The generator's appends for the lambda body spell an optional `return `, then the receiver, `.@method(`, the forwarded arguments joined with ", ", and `);`. |
| BindOps.NameGroup | src/Godot.SourceGenerators/BindMethodsWriter.cs:63-107 | There is one cached name per member of the category, in declaration order. Each is keyed by the symbol name and holds the override name when that is non-empty, otherwise the symbol name. |
| BindOps.ConstructorOps | src/Godot.SourceGenerators/BindMethodsWriter.cs:115-131 | A class without a constructor gets no constructor binding. An empty factory name binds `new C()`. Otherwise the named factory is bound. |
| BindOps.DispatchOf | src/Godot.SourceGenerators/BindMethodsWriter.cs:138-148 | Static takes precedence; otherwise virtual; otherwise an instance binding. Each is stated as an if-and-only-if over the method's flags. |
| BindOps.MethodOp | src/Godot.SourceGenerators/BindMethodsWriter.cs:134-263 | The abbreviated form is used exactly when the method is virtual with no parameters and no return. A virtual method gets the type arguments and no thunk. A non-virtual method gets no type arguments and exactly the thunk `ThunkOf` builds. The descriptors are the parameters' and the return's, in order. |
| BindOps.MethodOps | src/Godot.SourceGenerators/BindMethodsWriter.cs:134-136 | There is one method binding per declared method, in declaration order. |
| BindOps.PropertyOps | src/Godot.SourceGenerators/BindMethodsWriter.cs:266-268 | There is one property binding per declared property, in declaration order. |
| BindOps.SignalOps | src/Godot.SourceGenerators/BindMethodsWriter.cs:298-300 | There is one signal binding per declared signal, in declaration order. |
| BindOps.OpsOrdered | src/Godot.SourceGenerators/BindMethodsWriter.cs:40-51 | The emitted stream is ordered: cached names, then the constructor, methods, properties and signals. |
| BindOps.OpsByCategory | src/Godot.SourceGenerators/BindMethodsWriter.cs:40-51 | Selecting each category from the emitted stream gives exactly that category's section, so nothing else (constants in particular) is emitted. The stream holds one cached name per member, and a constructor binding exactly when the class has a constructor. |
| Descriptors.ReturnInfoArgsAsWrittenIsJoin | src/Godot.SourceGenerators/BindMethodsWriter.cs:331-340 | The generator's appends for a return descriptor (the type, then `, metadata` when it is not None) spell exactly the token list of `ReturnInfoArgs`, joined with ", ". |
| Descriptors.PropertyInfoArgsAsWrittenIsJoin | src/Godot.SourceGenerators/BindMethodsWriter.cs:366-376 | The generator's appends for a property descriptor (the cached name and a comma in one piece, the type, then `, metadata` when it is not None) spell exactly the token list of `PropertyInfoArgs`, joined with ", ". |
| GeneratedLayout.HeaderLinesExtend | src/Godot.SourceGenerators/BindMethodsWriter.cs:20-35 | Adding one more type directly around the class (the new innermost, first in the list) adds its `partial <kind> Name` and `{` lines after the existing headers, one level deeper than all of them: the reverse loop opens the outermost type, the last in the list, first. |
| GeneratedLayout.CallLinesBySection | src/Godot.SourceGenerators/BindMethodsWriter.cs:44-51 | The lines inside `BindMethods` are the constructor section's lines, then the methods', the properties' and the signals', each section the lines of its own registration stream in order. |
| BindMethodsWriter.OpenContainingTypes | src/Godot.SourceGenerators/BindMethodsWriter.cs:20-35 | The reverse loop writes exactly the header lines of the containing types, outermost first: each a `partial <kind> Name` line and a `{` line, one level deeper than the one before. Indentation and block depth rise by the number of containing types. |
| BindMethodsWriter.CloseBlocks | src/Godot.SourceGenerators/BindMethodsWriter.cs:57-60 | Closing n blocks writes exactly n `}` lines, each one level shallower than the one before, and lowers indentation and depth by n. |
| BindMethodsWriter.WriteNameClass | src/Godot.SourceGenerators/BindMethodsWriter.cs:67-79 | An empty category writes nothing. Otherwise it writes exactly the `public new class XName : Base.XName` header, a `{` line, one cached-name line per member in declaration order one level deeper, and a `}` line back at the header's level: the group's size plus three lines, balanced. |
| BindMethodsWriter.WriteCachedStringNames | src/Godot.SourceGenerators/BindMethodsWriter.cs:63-113 | Exactly the lines of the method, property and signal name classes, in that order, each category's names in declaration order and a category with no members left out. The builder is balanced. |
| BindMethodsWriter.EmitInitializer | src/Godot.SourceGenerators/BindMethodsWriter.cs:403-419 | With no fields, nothing is written. Otherwise it ends the descriptor's line, writes `{` at the current level and one line per field in order one level deeper, and leaves `}` pending on a line that starts at the original indentation. |
| BindMethodsWriter.EmitDescriptor | src/Godot.SourceGenerators/BindMethodsWriter.cs:344-364 | The descriptor call is appended to the current line. Without initializer fields nothing more is finished. With them, exactly that line, `{` and one line per field are finished, and the pending line is the initializer's `}` at the block's indentation. |
| BindMethodsWriter.EmitDescriptorList | src/Godot.SourceGenerators/BindMethodsWriter.cs:182-190 | The descriptors in order, each but the last followed by a `,` line end. When more arguments follow, the last is ended by `,` too; otherwise it is left open on the line it ends on. The finished lines are exactly the layout's descriptor list; an empty list writes nothing. |
| BindMethodsWriter.EmitMethodDescriptors | src/Godot.SourceGenerators/BindMethodsWriter.cs:182-206 | The parameters' descriptors and then the return's, the last ended by `);` for a virtual binding and by `,` for a binding that continues with its thunk. Without descriptors nothing is written. |
| BindMethodsWriter.EmitThunk | src/Godot.SourceGenerators/BindMethodsWriter.cs:210-260 | The lambda is exactly four lines: the header with the thunk's parameters, `{`, the forwarding call one level deeper, and `});` back at the original level. |
| BindMethodsWriter.EmitMethod | src/Godot.SourceGenerators/BindMethodsWriter.cs:143-263 | Exactly the method's layout lines. The abbreviated virtual form is one `context.BindVirtualMethod(MethodName.@m);` line. Every other form is its head and a comma, its descriptors one level deeper, and, unless virtual, its thunk. Indentation and depth end where they started. |
| BindMethodsWriter.EmitAccessors | src/Godot.SourceGenerators/BindMethodsWriter.cs:279-295 | The getter lambda returning `__instance.@p`, ended by `},`, then the setter lambda taking the property's type and assigning `value`, ended by `});`: exactly eight lines, bodies one level deeper. |
| BindMethodsWriter.EmitProperty | src/Godot.SourceGenerators/BindMethodsWriter.cs:268-295 | Exactly the property's layout lines: `context.BindProperty(` and the property descriptor, ended by `,`, then the getter and the setter one level deeper. Balanced. |
| BindMethodsWriter.EmitSignal | src/Godot.SourceGenerators/BindMethodsWriter.cs:300-328 | Exactly the signal's layout lines. A signal without parameters is the single `context.BindSignal(new ...SignalInfo(SignalName.@s));` line. Otherwise an initializer whose `Parameters` block lists every parameter's descriptor followed by a comma, closed by `},` and `});`. Balanced. |
| BindMethodsWriter.WriteBindConstructor | src/Godot.SourceGenerators/BindMethodsWriter.cs:115-132 | Nothing for a class without a constructor. Otherwise exactly one `context.BindConstructor(...)` line at the current level: `new C()` or the named factory. |
| BindMethodsWriter.WriteBindMethods | src/Godot.SourceGenerators/BindMethodsWriter.cs:134-264 | Exactly the lines of every method registration, one after the other in declaration order. Balanced. |
| BindMethodsWriter.WriteBindProperties | src/Godot.SourceGenerators/BindMethodsWriter.cs:266-296 | Exactly the lines of every property registration, one after the other in declaration order. Balanced. |
| BindMethodsWriter.WriteBindSignals | src/Godot.SourceGenerators/BindMethodsWriter.cs:298-329 | Exactly the lines of every signal registration, one after the other in declaration order. Balanced. |
| BindMethodsWriter.EmitOp | src/Godot.SourceGenerators/BindMethodsWriter.cs:115-329 | One registration call: nothing for a cached name, which is written with the name classes instead; otherwise exactly the constructor line, or the method, property or signal lines of that registration. |
| BindMethodsWriter.EmitAll | src/Godot.SourceGenerators/BindMethodsWriter.cs:134-136 | The registrations of a stream one after the other, in stream order: exactly the concatenation of each one's lines, balanced. Each of the constructor, method, property and signal sections is written through it. |
| BindMethodsWriter.Prologue | src/Godot.SourceGenerators/BindMethodsWriter.cs:11-18 | The `#nullable enable` line, then the file-scoped namespace line only when the namespace is non-empty. Each is followed by an empty line. |
| BindMethodsWriter.WriteCalls | src/Godot.SourceGenerators/BindMethodsWriter.cs:44-51 | The constructor, method, property and signal registrations, in that order: exactly the lines of the registration stream `CallOps`. |
| BindMethodsWriter.WriteBindMethodsDeclaration | src/Godot.SourceGenerators/BindMethodsWriter.cs:43-53 | The `BindMethods(global::Godot.Bridge.ClassDBRegistrationContext context)` signature line, `{`, the registration calls one level deeper, and `}`. Balanced. |
| BindMethodsWriter.WriteClassBody | src/Godot.SourceGenerators/BindMethodsWriter.cs:40-53 | The class's members: the cached-name classes, then the `BindMethods` declaration. |
| BindMethodsWriter.WriteClass | src/Godot.SourceGenerators/BindMethodsWriter.cs:37-55 | Exactly the class's layout lines: `partial class C`, `{`, the cached-name classes and `BindMethods` one level deeper, and `}`. Balanced. |
| BindMethodsWriter.Write | src/Godot.SourceGenerators/BindMethodsWriter.cs:9-61 | Exactly the file's layout lines: the prologue, the containing types opened outermost first, the class one level inside the innermost of them, and one `}` per containing type, innermost first. Indentation and depth end where they started and the earlier lines are kept. |
| ConstantRegistration.EnumNameOf | src/Godot.Bindings/Bridge/Registration/ClassRegistrationContext.BindConstant.cs:25 | A missing enumeration name is the empty name. |
| ConstantRegistration.BindConstant | src/Godot.Bindings/Bridge/Registration/ClassRegistrationContext.BindConstant.cs:18-41 | A duplicate name is rejected with nothing changed. Otherwise the name is taken; then a flags constant without an enumeration is rejected, keeping the name and the queue as they were. The bind succeeds exactly when the name is new and the constant is not such a flag. Success appends exactly one deferred call with the class, enumeration, name, value and flags marker. No call is issued. |
| ConstantRegistration.RetryAfterFlagRejection | src/Godot.Bindings/Bridge/Registration/ClassRegistrationContext.BindConstant.cs:20-30 | After a flags rejection, binding the same name again fails as a duplicate, even when the retry is well formed. |
| ConstantRegistration.Drain | src/Godot.Bindings/Bridge/Registration/ClassRegistrationContext.BindConstant.cs:32-40 | Running the deferred actions issues their native calls in queue order and empties the queue. |
| ConstantRegistration.BindAndDrain | src/Godot.Bindings/Bridge/Registration/ClassRegistrationContext.BindConstant.cs:32-40 | Whatever was queued before, a constant bound successfully is registered, once the queue is drained, by exactly one call after the earlier ones, carrying the class name, the enumeration name (empty when missing), the name, the value and the flags marker. A rejected one adds no call of its own. |
| ConstantRegistration.BindAllSucceeds | src/Godot.Bindings/Bridge/Registration/ClassRegistrationContext.BindConstant.cs:18-41 | Binding a list succeeds exactly when its names are pairwise distinct, none was bound before, and every flags constant has an enumeration. |
| ConstantRegistration.BindAllEffects | src/Godot.Bindings/Bridge/Registration/ClassRegistrationContext.BindConstant.cs:20-40 | After a successful list bind, every name is taken and the queue has grown by one call per constant, in list order. |
| SummatorSample.Wrap32 | samples/Summator/Extension/Summator.cs:12 | The unchecked `int` result is congruent to the exact value modulo 2^32, and equal to it when it fits. |
| SummatorSample.Wrap32Add | samples/Summator/Extension/Summator.cs:12 | Wrapping after each addition equals wrapping the exact total once. |
| SummatorSample.New | samples/Summator/Extension/Summator.cs:8 | A new instance counts zero. |
| SummatorSample.Add | samples/Summator/Extension/Summator.cs:10-13 | `Add` increases the count by its argument, one by default. The result is congruent modulo 2^32 to the exact sum, and equal to it when it fits. |
| SummatorSample.Reset | samples/Summator/Extension/Summator.cs:15-18 | `Reset` returns the count to zero, the state of a new instance. |
| SummatorSample.Invoke | samples/Summator/Extension/Summator.cs:10-23 | Only `GetTotal` returns a value, and it returns the count and leaves the instance unchanged. `Add()` without an argument adds one. |
| SummatorSample.CountIsSumSinceReset | samples/Summator/Extension/Summator.cs:8-23 | After any sequence of calls on a new instance, the count is the 32-bit wrap of the values added since the last reset. It is that exact sum whenever the sum fits. |
| SummatorSample.SampleSession | samples/Summator/Extension/Summator.cs:8-23 | `Add()`, `Add(5)`, `GetTotal()`, `Reset()`, `GetTotal()` return 6 and then 0. |
| SummatorSample.HandWrittenBindings | samples/Summator/Extension/Summator.cs:25-48 | The sample registers four things: the constructor first, then three instance-method bindings with lambdas. |
| SummatorSample.AddBindsLike | samples/Summator/Extension/Summator.cs:29-34 | The hand-written `Add` binding is the generated one: one Int/Int32 parameter `value` defaulting to 1, no return. Its lambda has the generated thunk's shape. |
| SummatorSample.ResetBindsLike | samples/Summator/Extension/Summator.cs:36-40 | The hand-written `Reset` binding is the generated one: no parameters, no return. Its lambda has the generated thunk's shape. |
| SummatorSample.GetTotalBindsLike | samples/Summator/Extension/Summator.cs:42-47 | The hand-written `GetTotal` binding is the generated one: no parameters, an Int/Int32 return. Its lambda returns, like the generated thunk. |
| SummatorSample.SummatorCallOps | samples/Summator/Extension/Summator.cs:6-23 | For the sample class the generator registers the parameterless constructor, then `Add`, `Reset` and `GetTotal` in declaration order, and no property or signal. |
| SummatorSample.HandWrittenMatchesGenerated | samples/Summator/Extension/Summator.cs:25-48 | The sample's `BindMethods` performs the generator's registrations for the class, in the same order: constructor, `Add`, `Reset`, `GetTotal`, compared as registrations (name, dispatch, descriptors, lambda arity and return). The text differs in how names are made, in the context parameter's type and in the receiver's name. |
| ClassDBExtensions.InitializeUserTypes | tests/Godot.SourceGenerators.Tests/TestData/GeneratedSources/MainWithoutEntryPoint.generated.cs:7-15 | Nothing is registered at any level but Scene. At Scene, exactly two classes are registered: `MyNode` as a runtime class, then `MyToolNode` as a regular class, each with its own `BindMethods`. |
| ClassDBExtensions.DeinitializeUserTypes | tests/Godot.SourceGenerators.Tests/TestData/GeneratedSources/MainWithoutEntryPoint.generated.cs:16-22 | Deinitialization registers nothing at any level. |
| ClassDBExtensions.RegisteredOncePerScene | tests/Godot.SourceGenerators.Tests/TestData/GeneratedSources/MainWithoutEntryPoint.generated.cs:9-14 | For any sequence of announced levels, each class is registered once per Scene announcement, always with its own callback, and the call count is twice the number of Scene announcements. |
| ClassDBExtensions.StartupRegistersEachClassOnce | tests/Godot.SourceGenerators.Tests/TestData/GeneratedSources/MainWithoutEntryPoint.generated.cs:13-14 | Announcing Core, Servers, Scene, Editor registers each class exactly once, `MyNode` before `MyToolNode`. |
| ClassDBExtensions.ShutdownRegistersNothing | tests/Godot.SourceGenerators.Tests/TestData/GeneratedSources/MainWithoutEntryPoint.generated.cs:16-22 | Deinitializing through any sequence of levels registers nothing. |

## Left out

- `NodePathMarshaller` is not part of this model. It is pointer and ownership plumbing over native memory and native types outside this model.
- Native calls are modelled only as recorded events: `classdb_register_extension_class_integer_constant`, `GodotRegistry.RegisterClass` and `GodotRegistry.RegisterRuntimeClass`. Their effect inside the engine is not modelled.
- `StringName` interning (`CreateStaticFromAscii`) and the `FullNameWithGlobal()` spelling of enumeration members are abstract tokens. An enumeration member is `global::Godot.<Enum>.<Member>`, and a `None` member is `Option.None`.
- `IndentedStringBuilder` is not part of this model. The model assumes the following behaviour:
  - `OpenBlock` finishes a `{` line and then indents.
  - `CloseBlock` dedents and then finishes a `}` line.
  - A line takes the indentation in force when its first text was appended.
- The symbol analysis that builds the class specification is not modelled; the specification is an input. Nullable strings are plain strings, with "" standing for null-or-empty, the only way the generator inspects them.
- The `InvalidOperationException` for an unknown containing-symbol kind is not modelled: the closed `ContainingKind` datatype makes it unreachable. The `Debug.Assert` that a static method is not virtual is the precondition `ValidSpec`.
- The generator emits no constant section and has no constant category. Constants are registered only through `BindConstant`.
- The registration context's lifecycle is not part of this model: collecting, then deferred, then registered, with the queue drained at the matching level and later binds failing as already registered. Duplicate detection for methods, properties and signals is not modelled either; both are outside this model. `Drain` models only the in-order running of the queued constant actions.
- `ConstantInfo.Value`'s integer width is not modelled; it is an unbounded `int`, because the value is only passed through.
- `ConstantInfo` and the class name are taken as immutable. The queued action reads the constant's name, value and flags marker and the class name only when it runs; the model fixes them when `BindConstant` runs, so a change made by the caller between the bind and the drain is not modelled.
- The rendered text of a parameter's default value is an input. The generator interpolates the default value object into the descriptor; the model takes the resulting literal as a ready-made string in `explicitDefault`.
- The engine's filling-in of default arguments is not modelled. In the Summator calls, an omitted `Add` argument takes the C# default of 1.
- SummatorSample.Add: models C#'s default unchecked 32-bit wrap-around. The project's overflow setting is outside this model; a checked build would throw instead of wrapping.

=== FILE: bind_methods_writer.dfy ===
/** The binding generator's writer: it takes the indented text builder and returns it with the
    generated text appended, as the generator's methods append to the builder they are given.
    Each writer is proved to append exactly the lines `GeneratedLayout` states for its part. */
module BindMethodsWriter {
  import opened Wrappers
  import opened Text
  import opened IndentedText
  import opened ClassSpecs
  import opened Descriptors
  import opened BindOps
  import opened GeneratedLayout

  // ---------------------------------------------------------------------------------------------
  // Containing types

  function OpenContainingType(b: Builder, c: ContainingSymbol): (r: Builder)
    ensures r.indent == b.indent + 1 && r.depth == b.depth + 1 && r.pending == ""
    ensures b.pending == "" ==> r.lines == b.lines + [Line(b.indent, ContainingHeader(c)), Line(b.indent, "{")]
    ensures b.lines <= r.lines
  {
    OpenBlock(AppendLine(Append(Append(b, "partial "), Keyword(c.kind)), c.symbolName))
  }

  /** Opens the containing types from the outermost in, walking the list from its end: one
      `partial` header and one `{` per type, each nested one level deeper. */
  method OpenContainingTypes(b: Builder, cts: seq<ContainingSymbol>) returns (r: Builder)
    ensures r.indent == b.indent + |cts| && r.depth == b.depth + |cts|
    ensures b.lines <= r.lines
    ensures |cts| > 0 || b.pending == "" ==> r.pending == ""
    ensures b.pending == "" ==> r.lines == b.lines + HeaderLines(cts, b.indent)
  {
    r := b;
    var i := |cts|;
    while i > 0
      invariant 0 <= i <= |cts|
      invariant r.indent == b.indent + (|cts| - i) && r.depth == b.depth + (|cts| - i)
      invariant b.lines <= r.lines
      invariant i < |cts| || b.pending == "" ==> r.pending == ""
      invariant b.pending == "" ==> r.lines == b.lines + HeaderLines(cts[i..], b.indent)
    {
      i := i - 1;
      HeaderLinesExtend(cts[i], cts[i + 1..], b.indent);
      assert cts[i..] == [cts[i]] + cts[i + 1..];
      r := OpenContainingType(r, cts[i]);
    }
    assert cts[0..] == cts;
  }

  /** Closes `n` blocks, one `}` line each, each one level shallower than the one before. */
  method CloseBlocks(b: Builder, n: nat) returns (r: Builder)
    ensures r.indent == b.indent - n && r.depth == b.depth - n
    ensures b.lines <= r.lines
    ensures n > 0 || b.pending == "" ==> r.pending == ""
    ensures b.pending == "" ==> r.lines == b.lines + ClosingLines(n, b.indent)
  {
    r := b;
    var i := 0;
    while i < n
      invariant 0 <= i <= n
      invariant r.indent == b.indent - i && r.depth == b.depth - i
      invariant b.lines <= r.lines
      invariant i > 0 || b.pending == "" ==> r.pending == ""
      invariant b.pending == "" ==> r.lines == b.lines + ClosingLines(i, b.indent)
    {
      assert ClosingLines(i + 1, b.indent) == ClosingLines(i, b.indent) + [Line(b.indent - 1 - i, "}")];
      r := CloseBlock(r);
      i := i + 1;
    }
  }

  // ---------------------------------------------------------------------------------------------
  // Cached names

  /** The nested class of one category of cached names: nothing at all for an empty category,
      otherwise its header, a block with one line per name in order, and the block's end. */
  method WriteNameClass(b: Builder, baseType: string, category: NameCategory, group: seq<BindOp>) returns (r: Builder)
    ensures Balanced(b, r)
    ensures |r.lines| == |b.lines| + NameClassSize(|group|)
    ensures group == [] ==> r == b
    ensures group != [] ==> r.pending == ""
    ensures b.pending == "" ==> r.lines == b.lines + NameClassLines(b.indent, baseType, category, group)
  {
    if group == [] {
      return b;
    }
    var block := OpenBlockUnder(b, NameClassHeader(baseType, category));
    var texts := RenderEach(group, CachedNameLine);
    var filled := AppendLines(block, texts);
    r := CloseBlock(filled);
    PrefixTrans(b.lines, block.lines, filled.lines);
    PrefixTrans(b.lines, filled.lines, r.lines);
    if b.pending == "" {
      NameClassLinesFrom(b.indent, block.indent, baseType, category, group, texts, b.lines, block.lines,
                         filled.lines, r.lines);
    }
  }

  /** The cached names of the methods, then the properties, then the signals, each category in a
      class of its own that is emitted only when the category is non-empty. */
  method WriteCachedStringNames(b: Builder, spec: ClassSpec) returns (r: Builder)
    ensures Balanced(b, r)
    ensures |r.lines| == |b.lines| + NameClassSize(|spec.methods|) + NameClassSize(|spec.properties|)
                                   + NameClassSize(|spec.signals|)
    ensures b.pending == "" ==> r.lines == b.lines + CachedNamesLines(b.indent, spec)
  {
    var base := spec.fullyQualifiedBaseTypeName;
    var methods := WriteNameClass(b, base, MethodNames, NameGroup(spec, MethodNames));
    var properties := WriteNameClass(methods, base, PropertyNames, NameGroup(spec, PropertyNames));
    r := WriteNameClass(properties, base, SignalNames, NameGroup(spec, SignalNames));
    if b.pending == "" {
      var m := NameClassLines(b.indent, base, MethodNames, NameGroup(spec, MethodNames));
      var p := NameClassLines(b.indent, base, PropertyNames, NameGroup(spec, PropertyNames));
      AppendAssoc(b.lines, m + p, NameClassLines(b.indent, base, SignalNames, NameGroup(spec, SignalNames)));
      AppendAssoc(b.lines, m, p);
    }
  }

  // ---------------------------------------------------------------------------------------------
  // Descriptors

  /** The object initializer after a descriptor: nothing when there are no fields; otherwise the
      descriptor's line is ended, and a brace block with one line per field, in order, follows,
      left open on its closing brace so that the caller's punctuation joins it. */
  method EmitInitializer(b: Builder, fields: seq<InitField>) returns (r: Builder)
    ensures r.indent == b.indent && r.depth == b.depth && b.lines <= r.lines
    ensures fields == [] ==> r == b
    ensures fields != [] ==> r.lines == b.lines + [Line(StartIndent(b), b.pending), Line(b.indent, "{")]
                                                  + FieldLines(b.indent + 1, fields)
    ensures fields != [] ==> r.pending == "}" && StartIndent(r) == b.indent
  {
    if fields == [] {
      return b;
    }
    assert b.pending + "" == b.pending;
    var block := Indent(AppendLine(AppendLine(b, ""), "{"));
    assert block.lines == b.lines + [Line(StartIndent(b), b.pending), Line(b.indent, "{")];
    var filled := AppendLines(block, RenderEach(fields, RenderField));
    assert filled.lines == block.lines + FieldLines(b.indent + 1, fields);
    r := Append(Dedent(filled), "}");
  }

  /** A descriptor call appended to the current line, followed by its initializer. */
  method EmitDescriptor(b: Builder, d: Descriptor) returns (r: Builder)
    ensures r.indent == b.indent && r.depth == b.depth && b.lines <= r.lines
    ensures r.lines == b.lines + DescriptorOpening(StartIndent(b), b.indent, b.pending + d.call, d.fields)
    ensures r.pending == DescriptorEndText(b.pending + d.call, d.fields)
    ensures StartIndent(r) == DescriptorEndIndent(StartIndent(b), b.indent, d.fields)
  {
    var a := Append(b, d.call);
    r := EmitInitializer(a, d.fields);
    if d.fields != [] {
      AppendAssoc(b.lines, [Line(StartIndent(b), b.pending + d.call), Line(b.indent, "{")], FieldLines(b.indent + 1, d.fields));
    }
  }

  /** Descriptors in order, each followed by a `,` line end unless it is the last one and nothing
      follows the list. With `trailing` every one is ended and the whole list is written; without
      it the last one is left open on the line it ends on. */
  method EmitDescriptorList(b: Builder, ds: seq<Descriptor>, trailing: bool) returns (r: Builder)
    ensures r.indent == b.indent && r.depth == b.depth && b.lines <= r.lines
    ensures ds == [] ==> r == b
    ensures ds != [] && trailing ==> r.pending == ""
    ensures b.pending == "" && trailing ==> r.pending == "" && r.lines == b.lines + DescriptorListLines(b.indent, ds, ",")
    ensures b.pending == "" && !trailing && ds != [] ==>
              var last := ds[|ds| - 1];
              && r.lines == b.lines + DescriptorListLines(b.indent, ds[..|ds| - 1], ",")
                            + DescriptorOpening(b.indent, b.indent, last.call, last.fields)
              && r.pending == DescriptorEndText(last.call, last.fields)
              && StartIndent(r) == DescriptorEndIndent(b.indent, b.indent, last.fields)
  {
    r := b;
    var i := 0;
    ghost var done: seq<Descriptor> := [];
    while i < |ds|
      invariant 0 <= i <= |ds| && done == ds[..i]
      invariant r.indent == b.indent && r.depth == b.depth && b.lines <= r.lines
      invariant i == 0 ==> r == b
      invariant i > 0 && trailing ==> r.pending == ""
      invariant b.pending == "" && (i < |ds| || trailing) ==>
                  r.pending == "" && r.lines == b.lines + DescriptorListLines(b.indent, done, ",")
      invariant b.pending == "" && i == |ds| && !trailing && ds != [] ==>
                  var last := ds[|ds| - 1];
                  && r.lines == b.lines + DescriptorListLines(b.indent, ds[..|ds| - 1], ",")
                                + DescriptorOpening(b.indent, b.indent, last.call, last.fields)
                  && r.pending == DescriptorEndText(last.call, last.fields)
                  && StartIndent(r) == DescriptorEndIndent(b.indent, b.indent, last.fields)
    {
      r := EmitDescriptor(r, ds[i]);
      AppendEmpty(ds[i].call);
      if trailing || i < |ds| - 1 {
        r := AppendLine(r, ",");
        if b.pending == "" {
          DescriptorListFrom(b.indent, done, ds[i], ",", b.lines, r.lines);
        }
      } else {
        assert done == ds[..|ds| - 1] && ds[i] == ds[|ds| - 1];
      }
      TakeSnoc(ds, i);
      done := done + [ds[i]];
      i := i + 1;
    }
    assert done == ds;
  }

  // ---------------------------------------------------------------------------------------------
  // Registration calls

  /** The thunk lambda: its header, a body that forwards the call one level deeper, and the end
      of the registration call. */
  method EmitThunk(b: Builder, t: Thunk) returns (r: Builder)
    ensures Balanced(b, r) && r.pending == ""
    ensures b.pending == "" ==> r.lines == b.lines + ThunkLines(b.indent, t)
  {
    var b1 := Indent(AppendLine(AppendLine(b, "static (" + Join(t.parameters, ", ") + ") =>"), "{"));
    r := AppendLine(Dedent(AppendLine(b1, ForwardingCall(t))), "});");
  }

  /** A method registration's descriptors one after the other, the last one ended by `closing`. */
  method EmitMethodDescriptors(b: Builder, op: BindOp, closing: string) returns (r: Builder)
    requires op.BindMethod?
    ensures r.indent == b.indent && r.depth == b.depth && b.lines <= r.lines
    ensures MethodDescriptors(op) != [] ==> r.pending == ""
    ensures MethodDescriptors(op) == [] ==> r == b
    ensures b.pending == "" ==> r.lines == b.lines + DescriptorListLines(b.indent, MethodDescriptors(op), closing)
  {
    var ps := ParameterDescriptors(op.parameters);
    match op.returnInfo {
      case Some(ri) =>
        r := EmitDescriptorList(b, ps, true);
        var rd := ReturnDescriptor(ri);
        r := EmitDescriptor(r, rd);
        r := AppendLine(r, closing);
        if b.pending == "" {
          AppendEmpty(rd.call);
          DescriptorListFrom(b.indent, ps, rd, closing, b.lines, r.lines);
        }
      case None =>
        assert MethodDescriptors(op) == ps;
        r := EmitDescriptorList(b, ps, false);
        if ps == [] {
          return;
        }
        r := AppendLine(r, closing);
        if b.pending == "" {
          DescriptorListFrom(b.indent, ps[..|ps| - 1], ps[|ps| - 1], closing, b.lines, r.lines);
          TakeSnoc(ps, |ps| - 1);
        }
    }
  }

  /** One method registration. The abbreviated virtual form is a single line without type
      arguments or descriptors; every other form opens with the head and a comma, lists its
      descriptors one level deeper and ends at the original indentation. */
  method EmitMethod(b: Builder, op: BindOp) returns (r: Builder)
    requires op.BindMethod?
    ensures Balanced(b, r) && r.pending == ""
    ensures b.pending == "" ==> r.lines == b.lines + MethodLines(b.indent, op)
  {
    var head := Append(b, MethodHead(op));
    AppendEmpty(MethodHead(op));
    if Abbreviated(op) {
      r := AppendLine(head, ");");
      return;
    }
    r := Indent(AppendLine(head, ","));
    ghost var afterHead := r;
    var virtual := op.dispatch == Virtual;
    r := EmitMethodDescriptors(r, op, if virtual then ");" else ",");
    ghost var afterDescriptors := r;
    if !virtual && op.thunk.Some? {
      r := EmitThunk(r, op.thunk.value);
    }
    r := Dedent(r);
    PrefixTrans(b.lines, afterHead.lines, afterDescriptors.lines);
    PrefixTrans(b.lines, afterDescriptors.lines, r.lines);
    if b.pending == "" {
      MethodLinesFrom(b.indent, afterHead.indent, op, b.lines, afterHead.lines, afterDescriptors.lines, r.lines);
    }
  }

  /** One property registration: its descriptor, a getter and a setter of the property's type. */
  method EmitProperty(b: Builder, op: BindOp) returns (r: Builder)
    requires op.BindProperty?
    ensures Balanced(b, r) && r.pending == ""
    ensures b.pending == "" ==> r.lines == b.lines + PropertyLines(b.indent, op)
  {
    r := Indent(Append(b, "context.BindProperty("));
    var call := NewDescriptor("PropertyInfo", PropertyInfoArgs(op.info));
    r := EmitDescriptor(r, Descriptor(call, op.info.initializer));
    r := AppendLine(r, ",");
    ghost var afterDescriptor := r;
    r := EmitAccessors(r, op);
    r := Dedent(r);
    if b.pending == "" {
      assert ("" + "context.BindProperty(") + call == PropertyCall(op);
      PropertyLinesFrom(b.indent, op, b.lines, afterDescriptor.lines, r.lines);
    }
  }

  /** The getter, then the setter, whose `);` ends the property's registration call. */
  method EmitAccessors(b: Builder, op: BindOp) returns (r: Builder)
    requires op.BindProperty?
    ensures Balanced(b, r) && r.pending == ""
    ensures b.pending == "" ==> r.lines == b.lines + AccessorLines(b.indent, op)
  {
    var name := op.info.symbolName;
    r := Indent(AppendLine(AppendLine(b, "static (" + op.className + " __instance) =>"), "{"));
    r := AppendLine(Append(Dedent(AppendLine(r, "return __instance.@" + name + ";")), "}"), ",");
    r := Indent(AppendLine(AppendLine(r, "static (" + op.className + " __instance, " + op.typeName + " value) =>"), "{"));
    r := Append(Dedent(AppendLine(r, "__instance.@" + name + " = value;")), "}");
    r := AppendLine(r, ");");
    if b.pending == "" {
      assert "" + "}" + "," == "},";
      assert "" + "}" + ");" == "});";
    }
  }

  /** One signal registration: a one-liner without parameters, otherwise a `SignalInfo` whose
      initializer lists a descriptor per parameter, each followed by a comma. */
  method EmitSignal(b: Builder, op: BindOp) returns (r: Builder)
    requires op.BindSignal?
    ensures Balanced(b, r) && r.pending == ""
    ensures b.pending == "" ==> r.lines == b.lines + SignalLines(b.indent, op)
  {
    r := Append(b, SignalHead(op));
    if op.parameters == [] {
      r := AppendLine(r, ");");
      return;
    }
    r := Indent(AppendLine(AppendLine(r, ""), "{"));
    r := Indent(AppendLine(AppendLine(r, "Parameters ="), "{"));
    ghost var afterOpen := r;
    r := EmitDescriptorList(r, ParameterDescriptors(op.parameters), true);
    ghost var afterList := r;
    r := AppendLine(Dedent(r), "},");
    r := AppendLine(Dedent(r), "});");
    if b.pending == "" {
      assert ("" + SignalHead(op)) + "" == SignalHead(op);
      assert "" + "{" == "{" && "" + "Parameters =" == "Parameters =";
      assert "" + "}," == "}," && "" + "});" == "});";
      assert afterOpen.indent == b.indent + 2;
      SignalLinesFrom(b.indent, op, b.lines, afterOpen.lines, afterList.lines, r.lines);
    }
  }

  /** One registration call; cached names are not calls and are written by
      `WriteCachedStringNames` instead. */
  method EmitOp(b: Builder, op: BindOp) returns (r: Builder)
    ensures Balanced(b, r)
    ensures op.CachedName? ==> r == b
    ensures !op.CachedName? ==> r.pending == ""
    ensures b.pending == "" ==> r.lines == b.lines + OpLines(b.indent, op)
  {
    match op {
      case CachedName(_, _, _) =>
        r := b;
      case BindConstructor(_, _) =>
        r := AppendLine(b, ConstructorLine(op));
      case BindMethod(_, _, _, _, _, _) =>
        r := EmitMethod(b, op);
      case BindProperty(_, _, _) =>
        r := EmitProperty(b, op);
      case BindSignal(_, _) =>
        r := EmitSignal(b, op);
    }
  }

  /** The registration calls of `ops`, in order. */
  method EmitAll(b: Builder, ops: seq<BindOp>) returns (r: Builder)
    ensures Balanced(b, r)
    ensures b.pending == "" ==> r.lines == b.lines + Flatten(ops, OpLinesAt(b.indent))
  {
    r := b;
    var i := 0;
    while i < |ops|
      invariant 0 <= i <= |ops|
      invariant Balanced(b, r)
      invariant b.pending == "" ==> r.lines == b.lines + Flatten(ops[..i], OpLinesAt(b.indent))
    {
      ghost var before := r;
      r := EmitOp(r, ops[i]);
      if b.pending == "" {
        assert ops[..i + 1][..i] == ops[..i];
        assert Flatten(ops[..i + 1], OpLinesAt(b.indent)) == Flatten(ops[..i], OpLinesAt(b.indent)) + OpLines(b.indent, ops[i]);
        AppendAssoc(b.lines, Flatten(ops[..i], OpLinesAt(b.indent)), OpLines(b.indent, ops[i]));
      }
      i := i + 1;
    }
    assert ops[..|ops|] == ops;
  }

  method WriteBindConstructor(b: Builder, spec: ClassSpec) returns (r: Builder)
    ensures Balanced(b, r)
    ensures spec.ctor.None? ==> r == b
    ensures spec.ctor.Some? && b.pending == "" ==>
              r.lines == b.lines + [Line(b.indent, ConstructorLine(ConstructorOps(spec)[0]))]
    ensures b.pending == "" ==> r.lines == b.lines + Flatten(ConstructorOps(spec), OpLinesAt(b.indent))
  {
    var ops := ConstructorOps(spec);
    if ops == [] {
      return b;
    }
    r := AppendLine(b, ConstructorLine(ops[0]));
    assert ops == [ops[0]] && ops[..0] == [];
  }

  method WriteBindMethods(b: Builder, spec: ClassSpec) returns (r: Builder)
    requires ValidSpec(spec)
    ensures Balanced(b, r)
    ensures b.pending == "" ==> r.lines == b.lines + Flatten(MethodOps(spec), OpLinesAt(b.indent))
  {
    r := EmitAll(b, MethodOps(spec));
  }

  method WriteBindProperties(b: Builder, spec: ClassSpec) returns (r: Builder)
    ensures Balanced(b, r)
    ensures b.pending == "" ==> r.lines == b.lines + Flatten(PropertyOps(spec), OpLinesAt(b.indent))
  {
    r := EmitAll(b, PropertyOps(spec));
  }

  method WriteBindSignals(b: Builder, spec: ClassSpec) returns (r: Builder)
    ensures Balanced(b, r)
    ensures b.pending == "" ==> r.lines == b.lines + Flatten(SignalOps(spec), OpLinesAt(b.indent))
  {
    r := EmitAll(b, SignalOps(spec));
  }

  // ---------------------------------------------------------------------------------------------
  // The whole file

  /** The nullable-context directive and, for a class outside the global namespace, the file-scoped
      namespace declaration, each followed by an empty line. */
  method Prologue(b: Builder, spec: ClassSpec) returns (r: Builder)
    ensures r.indent == b.indent && r.depth == b.depth && r.pending == ""
    ensures b.lines <= r.lines
    ensures b.pending == "" ==> r.lines == b.lines + PrologueLines(b.indent, spec)
  {
    r := AppendLine(AppendLine(b, "#nullable enable"), "");
    if spec.fullyQualifiedNamespace != "" {
      r := AppendLine(AppendLine(r, "namespace " + spec.fullyQualifiedNamespace + ";"), "");
    }
  }

  /** The body of `BindMethods`: the constructor, the methods, the properties and the signals. */
  method WriteCalls(b: Builder, spec: ClassSpec) returns (r: Builder)
    requires ValidSpec(spec)
    ensures Balanced(b, r)
    ensures b.pending == "" ==> r.lines == b.lines + CallLines(b.indent, spec)
  {
    r := WriteBindConstructor(b, spec);
    r := WriteBindMethods(r, spec);
    r := WriteBindProperties(r, spec);
    r := WriteBindSignals(r, spec);
    if b.pending == "" {
      var k := Flatten(ConstructorOps(spec), OpLinesAt(b.indent));
      var m := Flatten(MethodOps(spec), OpLinesAt(b.indent));
      var p := Flatten(PropertyOps(spec), OpLinesAt(b.indent));
      CallLinesBySection(b.indent, spec);
      AppendAssoc(b.lines, k + m + p, Flatten(SignalOps(spec), OpLinesAt(b.indent)));
      AppendAssoc(b.lines, k + m, p);
      AppendAssoc(b.lines, k, m);
    }
  }

  /** The `BindMethods` declaration: its signature, and a block holding the registration calls. */
  method WriteBindMethodsDeclaration(b: Builder, spec: ClassSpec) returns (r: Builder)
    requires ValidSpec(spec)
    ensures Balanced(b, r) && r.pending == ""
    ensures b.pending == "" ==> r.lines == b.lines + BindMethodsLines(b.indent, spec)
  {
    var signed := OpenBlockUnder(b, BindMethodsSignature);
    var called := WriteCalls(signed, spec);
    r := CloseBlock(called);
    PrefixTrans(b.lines, signed.lines, called.lines);
    PrefixTrans(b.lines, called.lines, r.lines);
    if b.pending == "" {
      BindMethodsLinesFrom(b.indent, signed.indent, spec, b.lines, signed.lines, called.lines, r.lines);
    }
  }

  /** The members of the partial class: its cached names, then its `BindMethods`. */
  method WriteClassBody(b: Builder, spec: ClassSpec) returns (r: Builder)
    requires ValidSpec(spec)
    ensures Balanced(b, r) && r.pending == ""
    ensures b.pending == "" ==> r.lines == b.lines + (CachedNamesLines(b.indent, spec) + BindMethodsLines(b.indent, spec))
  {
    var named := WriteCachedStringNames(b, spec);
    r := WriteBindMethodsDeclaration(named, spec);
    PrefixTrans(b.lines, named.lines, r.lines);
    if b.pending == "" {
      AppendAssoc(b.lines, CachedNamesLines(b.indent, spec), BindMethodsLines(b.indent, spec));
    }
  }

  /** The partial class itself: its cached names and its `BindMethods`, which registers the
      constructor, the methods, the properties and the signals in that order. */
  method WriteClass(b: Builder, spec: ClassSpec) returns (r: Builder)
    requires ValidSpec(spec)
    ensures Balanced(b, r) && r.pending == ""
    ensures b.pending == "" ==> r.lines == b.lines + ClassLines(b.indent, spec)
  {
    var classOpen := OpenBlockUnder(b, "partial class " + spec.symbolName);
    var body := WriteClassBody(classOpen, spec);
    r := CloseBlock(body);
    PrefixTrans(b.lines, classOpen.lines, body.lines);
    PrefixTrans(b.lines, body.lines, r.lines);
    if b.pending == "" {
      ClassLinesFrom(b.indent, classOpen.indent, spec, b.lines, classOpen.lines, body.lines, r.lines);
    }
  }

  /** The generated source for a class. Every block it opens it closes, so the builder's
      indentation and open-block depth end where they started and the lines already written are
      kept; on a fresh line it appends exactly the lines of `FileLines`. */
  method Write(sb: Builder, spec: ClassSpec) returns (r: Builder)
    requires ValidSpec(spec)
    ensures r.indent == sb.indent && r.depth == sb.depth && sb.lines <= r.lines && r.pending == ""
    ensures sb.pending == "" ==>
              r.lines == sb.lines + FileLines(sb.indent, spec)
  {
    var n := |spec.containingTypes|;
    var prologue := Prologue(sb, spec);
    var nested := OpenContainingTypes(prologue, spec.containingTypes);
    var written := WriteClass(nested, spec);
    r := CloseBlocks(written, n);
    if sb.pending == "" {
      FileLinesFrom(sb.indent, n, spec, sb.lines, prologue.lines, nested.lines, written.lines, r.lines);
    }
  }
}

=== FILE: bind_ops.dfy ===
/** The abstract output of the binding generator: the ordered stream of operations that the
    generated `BindMethods` performs on the registration context, preceded by the cached names it
    declares. Constants are not a category of this stream: the generator emits no `BindConstant`. */
module BindOps {
  import opened Wrappers
  import opened ClassSpecs
  import opened Descriptors

  /** The three nested classes of cached names (`MethodName`, `PropertyName`, `SignalName`). */
  datatype NameCategory = MethodNames | PropertyNames | SignalNames

  /** The registration call used for a method. */
  datatype Dispatch = Static | Virtual | Instance

  /** `new C()`, or a call to a named static factory `C.@F()`. */
  datatype ConstructorForm = NewInstance | Factory(methodSymbolName: string)

  datatype BindOp =
    | CachedName(category: NameCategory, symbolName: string, value: string)
    | BindConstructor(className: string, form: ConstructorForm)
    | BindMethod(dispatch: Dispatch, symbolName: string, typeArguments: seq<string>,
                 parameters: seq<ParameterInfo>, returnInfo: Option<ReturnInfo>, thunk: Option<Thunk>)
    | BindProperty(className: string, info: PropertyInfo, typeName: string)
    | BindSignal(symbolName: string, parameters: seq<ParameterInfo>)

  /** The section of the generated code an operation belongs to, in emission order. */
  function Rank(op: BindOp): nat
  {
    match op
    case CachedName(_, _, _) => 0
    case BindConstructor(_, _) => 1
    case BindMethod(_, _, _, _, _, _) => 2
    case BindProperty(_, _, _) => 3
    case BindSignal(_, _) => 4
  }

  // ---------------------------------------------------------------------------------------------
  // Cached names

  /** The (symbol name, name override) pairs of one category, in declaration order. */
  function CategoryMembers(spec: ClassSpec, category: NameCategory): (r: seq<(string, string)>)
    ensures category == MethodNames ==> |r| == |spec.methods|
    ensures category == PropertyNames ==> |r| == |spec.properties|
    ensures category == SignalNames ==> |r| == |spec.signals|
  {
    match category
    case MethodNames =>
      seq(|spec.methods|, i requires 0 <= i < |spec.methods| => (spec.methods[i].symbolName, spec.methods[i].nameOverride))
    case PropertyNames =>
      seq(|spec.properties|, i requires 0 <= i < |spec.properties| => (spec.properties[i].symbolName, spec.properties[i].nameOverride))
    case SignalNames =>
      seq(|spec.signals|, i requires 0 <= i < |spec.signals| => (spec.signals[i].symbolName, spec.signals[i].nameOverride))
  }

  /** One cached name per member of the category, in order, keyed by the symbol name and holding
      the override when it is non-empty and the symbol name otherwise. */
  function NameGroup(spec: ClassSpec, category: NameCategory): (r: seq<BindOp>)
    ensures |r| == |CategoryMembers(spec, category)|
    ensures forall i :: 0 <= i < |r| ==>
              var member := CategoryMembers(spec, category)[i];
              && r[i].CachedName? && r[i].category == category && r[i].symbolName == member.0
              && (member.1 != "" ==> r[i].value == member.1)
              && (member.1 == "" ==> r[i].value == member.0)
  {
    var members := CategoryMembers(spec, category);
    seq(|members|, i requires 0 <= i < |members| => CachedName(category, members[i].0, ResolvedName(members[i].0, members[i].1)))
  }

  function CachedNames(spec: ClassSpec): seq<BindOp>
  {
    NameGroup(spec, MethodNames) + NameGroup(spec, PropertyNames) + NameGroup(spec, SignalNames)
  }

  // ---------------------------------------------------------------------------------------------
  // Registration calls

  /** Nothing for a class without a constructor; `new C()` when no factory method is named; the
      named factory otherwise. */
  function ConstructorOps(spec: ClassSpec): (r: seq<BindOp>)
    ensures spec.ctor.None? ==> r == []
    ensures spec.ctor.Some? && spec.ctor.value.methodSymbolName == "" ==> r == [BindConstructor(spec.symbolName, NewInstance)]
    ensures spec.ctor.Some? && spec.ctor.value.methodSymbolName != ""
            ==> r == [BindConstructor(spec.symbolName, Factory(spec.ctor.value.methodSymbolName))]
  {
    match spec.ctor
    case None => []
    case Some(c) =>
      if c.methodSymbolName == "" then [BindConstructor(spec.symbolName, NewInstance)]
      else [BindConstructor(spec.symbolName, Factory(c.methodSymbolName))]
  }

  /** A static method binds with `BindStaticMethod` whatever its virtual flag says; otherwise a
      virtual one binds with `BindVirtualMethod` and any other with `BindMethod`. */
  function DispatchOf(m: MethodSpec): (d: Dispatch)
    ensures d == Static <==> m.isStatic
    ensures d == Virtual <==> !m.isStatic && m.isVirtual
    ensures d == Instance <==> !m.isStatic && !m.isVirtual
  {
    if m.isStatic then Static else if m.isVirtual then Virtual else Instance
  }

  /** The short virtual registration `BindVirtualMethod(MethodName.@M)`: no type arguments, no
      descriptors. */
  predicate Abbreviated(op: BindOp)
  {
    op.BindMethod? && op.dispatch == Virtual && op.parameters == [] && op.returnInfo.None?
  }

  function ReturnInfoOpt(ret: Option<ParamSpec>): (r: Option<ReturnInfo>)
    ensures r.Some? <==> ret.Some?
    ensures ret.Some? ==> r.value == ReturnInfoOf(ret.value)
  {
    match ret
    case Some(p) => Some(ReturnInfoOf(p))
    case None => None
  }

  /** The binding of one method. A virtual method with no parameters and no return takes the
      abbreviated form; any other virtual method lists the parameter types then the return type as
      type arguments, carries all its descriptors and has no thunk; a non-virtual method has no
      type arguments and a thunk that forwards to it. */
  function MethodOp(className: string, m: MethodSpec): (r: BindOp)
    requires ValidMethod(m)
    ensures r.BindMethod? && r.symbolName == m.symbolName && r.dispatch == DispatchOf(m)
    ensures Abbreviated(r) <==> m.isVirtual && |m.parameters| == 0 && m.returnParameter.None?
    ensures m.isVirtual ==> r.typeArguments == TypeArgumentsOf(m)
    ensures m.isVirtual ==> |r.typeArguments| == |m.parameters| + (if m.returnParameter.Some? then 1 else 0)
    ensures !m.isVirtual ==> r.typeArguments == []
    ensures r.parameters == ParameterInfos(m.parameters)
    ensures r.returnInfo == ReturnInfoOpt(m.returnParameter)
    ensures r.thunk.Some? <==> !m.isVirtual
    ensures r.thunk.Some? ==> r.thunk.value == ThunkOf(className, m)
  {
    BindMethod(DispatchOf(m), m.symbolName,
               if m.isVirtual then TypeArgumentsOf(m) else [],
               ParameterInfos(m.parameters), ReturnInfoOpt(m.returnParameter),
               if m.isVirtual then None else Some(ThunkOf(className, m)))
  }

  function MethodOps(spec: ClassSpec): (r: seq<BindOp>)
    requires ValidSpec(spec)
    ensures |r| == |spec.methods|
    ensures forall i :: 0 <= i < |r| ==> r[i] == MethodOp(spec.symbolName, spec.methods[i])
  {
    seq(|spec.methods|, i requires 0 <= i < |spec.methods| => MethodOp(spec.symbolName, spec.methods[i]))
  }

  /** A property registers a descriptor named through its cached name, plus a getter and a setter
      of its declared type. */
  function PropertyOp(className: string, p: ParamSpec): BindOp
  {
    BindProperty(className, PropertyInfoOf(p), TypeNameOf(p))
  }

  function PropertyOps(spec: ClassSpec): (r: seq<BindOp>)
    ensures |r| == |spec.properties|
    ensures forall i :: 0 <= i < |r| ==> r[i] == PropertyOp(spec.symbolName, spec.properties[i])
  {
    seq(|spec.properties|, i requires 0 <= i < |spec.properties| => PropertyOp(spec.symbolName, spec.properties[i]))
  }

  function SignalOp(s: SignalSpec): BindOp
  {
    BindSignal(s.symbolName, ParameterInfos(s.parameters))
  }

  function SignalOps(spec: ClassSpec): (r: seq<BindOp>)
    ensures |r| == |spec.signals|
    ensures forall i :: 0 <= i < |r| ==> r[i] == SignalOp(spec.signals[i])
  {
    seq(|spec.signals|, i requires 0 <= i < |spec.signals| => SignalOp(spec.signals[i]))
  }

  /** The calls inside the generated `BindMethods`. */
  function CallOps(spec: ClassSpec): seq<BindOp>
    requires ValidSpec(spec)
  {
    ConstructorOps(spec) + MethodOps(spec) + PropertyOps(spec) + SignalOps(spec)
  }

  /** Everything the generator emits for a class, in emission order. */
  function Ops(spec: ClassSpec): seq<BindOp>
    requires ValidSpec(spec)
  {
    CachedNames(spec) + CallOps(spec)
  }

  // ---------------------------------------------------------------------------------------------
  // Emission order

  predicate Ordered(ops: seq<BindOp>)
  {
    forall i, j :: 0 <= i < j < |ops| ==> Rank(ops[i]) <= Rank(ops[j])
  }

  predicate AllOfRank(ops: seq<BindOp>, k: nat)
  {
    forall i :: 0 <= i < |ops| ==> Rank(ops[i]) == k
  }

  /** The operations of one section, in the order they appear. */
  function OfRank(ops: seq<BindOp>, k: nat): (r: seq<BindOp>)
    ensures |r| <= |ops|
  {
    if |ops| == 0 then []
    else (if Rank(ops[0]) == k then [ops[0]] else []) + OfRank(ops[1..], k)
  }

  lemma {:induction false} OfRankAppend(a: seq<BindOp>, b: seq<BindOp>, k: nat)
    ensures OfRank(a + b, k) == OfRank(a, k) + OfRank(b, k)
  {
    if |a| == 0 {
      assert a + b == b;
    } else {
      var head := if Rank(a[0]) == k then [a[0]] else [];
      assert (a + b)[0] == a[0];
      assert (a + b)[1..] == a[1..] + b;
      assert OfRank(a + b, k) == head + OfRank(a[1..] + b, k);
      assert OfRank(a, k) == head + OfRank(a[1..], k);
      OfRankAppend(a[1..], b, k);
    }
  }

  /** Selecting a section keeps a list of that section whole and drops a list of another. */
  lemma {:induction false} OfRankUniform(ops: seq<BindOp>, k: nat, j: nat)
    requires AllOfRank(ops, j)
    ensures OfRank(ops, k) == (if k == j then ops else [])
  {
    if |ops| > 0 {
      OfRankUniform(ops[1..], k, j);
      if k == j {
        assert ops == [ops[0]] + ops[1..];
      }
    }
  }

  lemma OrderedAppend(a: seq<BindOp>, b: seq<BindOp>, ka: nat, kb: nat)
    requires Ordered(a) && AllOfRank(b, kb) && ka <= kb
    requires forall i :: 0 <= i < |a| ==> Rank(a[i]) <= ka
    ensures Ordered(a + b)
    ensures forall i :: 0 <= i < |a + b| ==> Rank((a + b)[i]) <= kb
  {
  }

  lemma SectionsHaveTheirRanks(spec: ClassSpec)
    requires ValidSpec(spec)
    ensures AllOfRank(CachedNames(spec), 0)
    ensures AllOfRank(ConstructorOps(spec), 1)
    ensures AllOfRank(MethodOps(spec), 2)
    ensures AllOfRank(PropertyOps(spec), 3)
    ensures AllOfRank(SignalOps(spec), 4)
  {
    var m, p, s := NameGroup(spec, MethodNames), NameGroup(spec, PropertyNames), NameGroup(spec, SignalNames);
    assert AllOfRank(m, 0) && AllOfRank(p, 0) && AllOfRank(s, 0);
    assert forall i :: 0 <= i < |MethodOps(spec)| ==> MethodOps(spec)[i].BindMethod?;
  }

  /** Five sections of constant, increasing ranks, concatenated the way `Ops` concatenates them. */
  lemma {:induction false} SectionsOrdered(c: seq<BindOp>, k: seq<BindOp>, m: seq<BindOp>, p: seq<BindOp>, s: seq<BindOp>)
    requires AllOfRank(c, 0) && AllOfRank(k, 1) && AllOfRank(m, 2) && AllOfRank(p, 3) && AllOfRank(s, 4)
    ensures Ordered(c + (k + m + p + s))
  {
    OrderedAppend(c, k, 0, 1);
    OrderedAppend(c + k, m, 1, 2);
    OrderedAppend(c + k + m, p, 2, 3);
    OrderedAppend(c + k + m + p, s, 3, 4);
    assert c + (k + m + p + s) == c + k + m + p + s;
  }

  /** Selecting one rank from five uniform sections picks out exactly the section of that rank. */
  lemma {:induction false} SectionsSelected(c: seq<BindOp>, k: seq<BindOp>, m: seq<BindOp>, p: seq<BindOp>, s: seq<BindOp>, r: nat)
    requires AllOfRank(c, 0) && AllOfRank(k, 1) && AllOfRank(m, 2) && AllOfRank(p, 3) && AllOfRank(s, 4)
    ensures OfRank(c + (k + m + p + s), r)
         == (if r == 0 then c else if r == 1 then k else if r == 2 then m else if r == 3 then p else if r == 4 then s else [])
  {
    OfRankAppend(c, k + m + p + s, r);
    OfRankAppend(k + m + p, s, r);
    OfRankAppend(k + m, p, r);
    OfRankAppend(k, m, r);
    OfRankUniform(c, r, 0);
    OfRankUniform(k, r, 1);
    OfRankUniform(m, r, 2);
    OfRankUniform(p, r, 3);
    OfRankUniform(s, r, 4);
  }

  /** Cached names come first, then the constructor, the methods, the properties and the signals:
      no operation of a later section precedes one of an earlier section. */
  lemma {:induction false} OpsOrdered(spec: ClassSpec)
    requires ValidSpec(spec)
    ensures Ordered(Ops(spec))
  {
    SectionsHaveTheirRanks(spec);
    SectionsOrdered(CachedNames(spec), ConstructorOps(spec), MethodOps(spec), PropertyOps(spec), SignalOps(spec));
  }

  /** Each section of the stream holds exactly that section's operations, in declaration order:
      one cached name per method, property and signal, at most one constructor, one binding per
      method, property and signal. */
  lemma {:induction false} OpsByCategory(spec: ClassSpec)
    requires ValidSpec(spec)
    ensures OfRank(Ops(spec), 0) == CachedNames(spec)
    ensures OfRank(Ops(spec), 1) == ConstructorOps(spec)
    ensures OfRank(Ops(spec), 2) == MethodOps(spec)
    ensures OfRank(Ops(spec), 3) == PropertyOps(spec)
    ensures OfRank(Ops(spec), 4) == SignalOps(spec)
    ensures |OfRank(Ops(spec), 0)| == |spec.methods| + |spec.properties| + |spec.signals|
    ensures |OfRank(Ops(spec), 1)| == (if spec.ctor.Some? then 1 else 0)
  {
    SectionsHaveTheirRanks(spec);
    var c, k, m, p, s := CachedNames(spec), ConstructorOps(spec), MethodOps(spec), PropertyOps(spec), SignalOps(spec);
    SectionsSelected(c, k, m, p, s, 0);
    SectionsSelected(c, k, m, p, s, 1);
    SectionsSelected(c, k, m, p, s, 2);
    SectionsSelected(c, k, m, p, s, 3);
    SectionsSelected(c, k, m, p, s, 4);
  }

  /** The operation with its generated thunk erased: what a registration looks like from the
      engine's side, independent of how the adapter lambda is spelled. */
  function WithoutThunk(op: BindOp): BindOp
  {
    if op.BindMethod? then op.(thunk := None) else op
  }
}

=== FILE: class_db_extensions.dfy ===
/** The generated extension entry points of a test project with two classes, `MyNode` (registered
    with `RegisterRuntimeClass`) and `MyToolNode` (registered with `RegisterClass`). The engine
    announces each initialization level in turn; classes are registered only when the scene level
    is announced, and nothing is undone on deinitialization. */
module ClassDBExtensions {

  datatype InitializationLevel = Core | Servers | Scene | Editor

  /** A call into the registry, recorded with the class it registers and the binding callback it
      passes. */
  datatype RegistryCall =
    | RegisterRuntimeClass(typeName: string, bindMethods: string)
    | RegisterClass(typeName: string, bindMethods: string)

  const MyNode: string := "global::NS.MyNode"
  const MyToolNode: string := "global::NS.MyToolNode"

  /** Every class is registered with its own `BindMethods`. */
  predicate OwnCallbacks(calls: seq<RegistryCall>)
  {
    forall i :: 0 <= i < |calls| ==> calls[i].bindMethods == calls[i].typeName + ".BindMethods"
  }

  /** `InitializeUserTypes`: nothing below or above the scene level; at the scene level `MyNode`
      as a runtime class, then `MyToolNode` as a regular class, each with its own callback. */
  function InitializeUserTypes(level: InitializationLevel): (r: seq<RegistryCall>)
    ensures level != Scene ==> r == []
    ensures level == Scene ==> |r| == 2 && r[0].RegisterRuntimeClass? && r[0].typeName == MyNode
                               && r[1].RegisterClass? && r[1].typeName == MyToolNode
    ensures OwnCallbacks(r)
  {
    if level != Scene then []
    else [RegisterRuntimeClass(MyNode, MyNode + ".BindMethods"), RegisterClass(MyToolNode, MyToolNode + ".BindMethods")]
  }

  /** `DeinitializeUserTypes`: returns at every level without touching the registry. */
  function DeinitializeUserTypes(level: InitializationLevel): (r: seq<RegistryCall>)
    ensures |r| == 0
  {
    []
  }

  /** The registry calls made while the engine announces `levels` in order. */
  function Initialize(levels: seq<InitializationLevel>): seq<RegistryCall>
    decreases |levels|
  {
    if levels == [] then [] else Initialize(levels[..|levels| - 1]) + InitializeUserTypes(levels[|levels| - 1])
  }

  function Deinitialize(levels: seq<InitializationLevel>): seq<RegistryCall>
    decreases |levels|
  {
    if levels == [] then [] else Deinitialize(levels[..|levels| - 1]) + DeinitializeUserTypes(levels[|levels| - 1])
  }

  function CountLevel(levels: seq<InitializationLevel>, level: InitializationLevel): nat
    decreases |levels|
  {
    if levels == [] then 0
    else CountLevel(levels[..|levels| - 1], level) + (if levels[|levels| - 1] == level then 1 else 0)
  }

  function Registrations(calls: seq<RegistryCall>, typeName: string): nat
    decreases |calls|
  {
    if calls == [] then 0
    else Registrations(calls[..|calls| - 1], typeName) + (if calls[|calls| - 1].typeName == typeName then 1 else 0)
  }

  lemma {:induction false} RegistrationsAppend(a: seq<RegistryCall>, b: seq<RegistryCall>, typeName: string)
    ensures Registrations(a + b, typeName) == Registrations(a, typeName) + Registrations(b, typeName)
    decreases |b|
  {
    if b != [] {
      assert (a + b)[..|a + b| - 1] == a + b[..|b| - 1];
      assert (a + b)[|a + b| - 1] == b[|b| - 1];
      RegistrationsAppend(a, b[..|b| - 1], typeName);
    } else {
      assert a + b == a;
    }
  }

  /** Whatever the order and repetition of the announced levels, each class is registered once per
      announcement of the scene level, always with its own callback, and no other class is. */
  lemma {:induction false} RegisteredOncePerScene(levels: seq<InitializationLevel>)
    ensures Registrations(Initialize(levels), MyNode) == CountLevel(levels, Scene)
    ensures Registrations(Initialize(levels), MyToolNode) == CountLevel(levels, Scene)
    ensures |Initialize(levels)| == 2 * CountLevel(levels, Scene)
    ensures OwnCallbacks(Initialize(levels))
    decreases |levels|
  {
    if levels != [] {
      var init := levels[..|levels| - 1];
      var step := InitializeUserTypes(levels[|levels| - 1]);
      RegisteredOncePerScene(init);
      RegistrationsAppend(Initialize(init), step, MyNode);
      RegistrationsAppend(Initialize(init), step, MyToolNode);
      if step != [] {
        assert step[..1][..0] == [] && step[..1] == [step[0]];
        assert MyNode != MyToolNode;
        assert Registrations(step[..1], MyNode) == 1 && Registrations(step[..1], MyToolNode) == 0;
        assert step[..|step| - 1] == step[..1];
        assert Registrations(step, MyNode) == 1 && Registrations(step, MyToolNode) == 1;
      }
    }
  }

  /** The engine's startup announces every level once, from the core up: each class is registered
      exactly once, and `MyNode` before `MyToolNode`. */
  lemma StartupRegistersEachClassOnce()
    ensures var calls := Initialize([Core, Servers, Scene, Editor]);
            && Registrations(calls, MyNode) == 1 && Registrations(calls, MyToolNode) == 1
            && |calls| == 2 && calls[0].typeName == MyNode && calls[1].typeName == MyToolNode
  {
    var levels := [Core, Servers, Scene, Editor];
    RegisteredOncePerScene(levels);
    assert levels[..1][..0] == [];
    assert Initialize(levels[..1]) == [] && CountLevel(levels[..1], Scene) == 0;
    assert levels[..2][..1] == levels[..1];
    assert Initialize(levels[..2]) == [] && CountLevel(levels[..2], Scene) == 0;
    assert levels[..3][..2] == levels[..2];
    assert CountLevel(levels[..3], Scene) == 1;
    assert levels[..3] == levels[..|levels| - 1];
    assert Initialize(levels) == Initialize(levels[..3]) == InitializeUserTypes(Scene);
  }

  /** Shutdown, at whatever levels, registers nothing. */
  lemma {:induction false} ShutdownRegistersNothing(levels: seq<InitializationLevel>)
    ensures Deinitialize(levels) == []
    decreases |levels|
  {
    if levels != [] {
      ShutdownRegistersNothing(levels[..|levels| - 1]);
    }
  }
}

=== FILE: class_spec.dfy ===
/** The class description the binding generator reads: what the symbol analysis found on a
    `[GodotClass]` type. Nullable C# strings are modelled as strings with "" standing for
    "null or empty", which is the only way the generator ever inspects them. */
module ClassSpecs {
  import opened Wrappers

  /** The kinds of type a generated partial declaration can be nested in. */
  datatype ContainingKind = Interface | Class | Struct | RecordClass | RecordStruct

  datatype ContainingSymbol = ContainingSymbol(kind: ContainingKind, symbolName: string)

  /** How a value of a member's type crosses to the engine. `metadata`, `hint` and `usage` are
      `None` for the `None` member of `VariantTypeMetadata`, `PropertyHint` and
      `PropertyUsageFlags`; the other members are kept as their names. */
  datatype MarshalInfo = MarshalInfo(
    fullyQualifiedTypeName: string,
    variantType: string,
    metadata: Option<string>,
    hint: Option<string>,
    hintString: string,
    usage: Option<string>,
    className: string)

  /** A parameter, a return value or a property (the source uses one record for all three).
      `explicitDefault` is `Some(literal)` exactly when the parameter declares a default value. */
  datatype ParamSpec = ParamSpec(
    symbolName: string,
    nameOverride: string,
    marshalInfo: MarshalInfo,
    explicitDefault: Option<string>)

  datatype MethodSpec = MethodSpec(
    symbolName: string,
    nameOverride: string,
    isStatic: bool,
    isVirtual: bool,
    parameters: seq<ParamSpec>,
    returnParameter: Option<ParamSpec>)

  datatype SignalSpec = SignalSpec(symbolName: string, nameOverride: string, parameters: seq<ParamSpec>)

  /** `methodSymbolName` is "" when the class constructor itself is used. */
  datatype ConstructorSpec = ConstructorSpec(methodSymbolName: string)

  /** `ctor` is `None` for a class that cannot be instantiated from the engine. */
  datatype ClassSpec = ClassSpec(
    fullyQualifiedNamespace: string,
    containingTypes: seq<ContainingSymbol>,
    symbolName: string,
    fullyQualifiedBaseTypeName: string,
    ctor: Option<ConstructorSpec>,
    methods: seq<MethodSpec>,
    properties: seq<ParamSpec>,
    signals: seq<SignalSpec>)

  /** A static method cannot also be virtual (asserted by the generator). */
  predicate ValidMethod(m: MethodSpec)
  {
    !(m.isStatic && m.isVirtual)
  }

  predicate ValidSpec(spec: ClassSpec)
  {
    forall i :: 0 <= i < |spec.methods| ==> ValidMethod(spec.methods[i])
  }

  /** The name a member is registered under: its override when that is non-empty, otherwise its
      symbol name. */
  function ResolvedName(symbolName: string, nameOverride: string): string
  {
    if nameOverride != "" then nameOverride else symbolName
  }
}

=== FILE: constant_registration.dfy ===
/** Constant registration on a class's registration context: the set of constant names already
    bound and the queue of deferred native registrations. Binding checks the request and queues
    the native call; the calls are issued later, in queue order, when the queue is drained. */
module ConstantRegistration {
  import opened Wrappers

  /** A constant to register. `enumName` is `None` for a constant outside any enumeration. */
  datatype ConstantInfo = ConstantInfo(name: string, enumName: Option<string>, value: int, isFlagsEnum: bool)

  /** `classdb_register_extension_class_integer_constant`, recorded with the values it carries. */
  datatype NativeCall = RegisterIntegerConstant(
    className: string, enumName: string, constantName: string, value: int, isFlagsEnum: bool)

  /** The registration context's constant state. `queue` holds the native calls deferred by
      successful binds, oldest first; `issued` records the calls already made to the engine. */
  datatype Context = Context(
    className: string, registeredConstants: set<string>, queue: seq<NativeCall>, issued: seq<NativeCall>)

  datatype BindError =
    | ConstantAlreadyRegistered(name: string, className: string)
    | ConstantWithoutEnumCantBeFlag(name: string)

  /** The context after a bind, and the argument error it threw, if any. A throw does not roll
      back what the bind had already changed. */
  datatype Outcome = Outcome(context: Context, error: Option<BindError>)

  /** A missing enumeration name is the empty name. */
  function EnumNameOf(c: ConstantInfo): (r: string)
    ensures c.enumName.None? ==> r == ""
    ensures c.enumName.Some? ==> r == c.enumName.value
  {
    c.enumName.GetOr("")
  }

  /** A flags constant must belong to a (named) enumeration. */
  predicate FlagWithoutEnum(c: ConstantInfo)
  {
    EnumNameOf(c) == "" && c.isFlagsEnum
  }

  function CallFor(className: string, c: ConstantInfo): NativeCall
  {
    RegisterIntegerConstant(className, EnumNameOf(c), c.name, c.value, c.isFlagsEnum)
  }

  /** `BindConstant`. A name bound before is rejected and nothing changes. Otherwise the name is
      taken first; then a flags constant without an enumeration is rejected (keeping the name), and
      any other constant, with or without an enumeration, is accepted by appending exactly one
      deferred call at the end of the queue. No native call is made during the bind. */
  function BindConstant(ctx: Context, c: ConstantInfo): (r: Outcome)
    ensures r.context.className == ctx.className && r.context.issued == ctx.issued
    ensures c.name in ctx.registeredConstants ==>
              r.context == ctx && r.error == Some(ConstantAlreadyRegistered(c.name, ctx.className))
    ensures c.name !in ctx.registeredConstants ==> r.context.registeredConstants == ctx.registeredConstants + {c.name}
    ensures c.name !in ctx.registeredConstants && FlagWithoutEnum(c) ==>
              r.error == Some(ConstantWithoutEnumCantBeFlag(c.name)) && r.context.queue == ctx.queue
    ensures r.error.None? <==> c.name !in ctx.registeredConstants && !FlagWithoutEnum(c)
    ensures r.error.None? ==> r.context.queue == ctx.queue + [CallFor(ctx.className, c)]
  {
    if c.name in ctx.registeredConstants then
      Outcome(ctx, Some(ConstantAlreadyRegistered(c.name, ctx.className)))
    else
      var named := ctx.(registeredConstants := ctx.registeredConstants + {c.name});
      var enumName := EnumNameOf(c);
      if enumName == "" && c.isFlagsEnum then
        Outcome(named, Some(ConstantWithoutEnumCantBeFlag(c.name)))
      else
        Outcome(named.(queue := named.queue + [RegisterIntegerConstant(ctx.className, enumName, c.name, c.value, c.isFlagsEnum)]), None)
  }

  /** A flags constant rejected for lacking an enumeration still occupies its name: binding the same
      name again, even correctly, is rejected as a duplicate. */
  lemma RetryAfterFlagRejection(ctx: Context, c: ConstantInfo, retry: ConstantInfo)
    requires c.name !in ctx.registeredConstants && FlagWithoutEnum(c)
    requires retry.name == c.name
    ensures BindConstant(ctx, c).error == Some(ConstantWithoutEnumCantBeFlag(c.name))
    ensures BindConstant(BindConstant(ctx, c).context, retry).error == Some(ConstantAlreadyRegistered(c.name, ctx.className))
  {
  }

  /** Runs the deferred registrations in queue order, each issuing its native call, and empties
      the queue. */
  method Drain(ctx: Context) returns (r: Context)
    ensures r.className == ctx.className && r.registeredConstants == ctx.registeredConstants
    ensures r.queue == []
    ensures r.issued == ctx.issued + ctx.queue
  {
    r := ctx;
    while r.queue != []
      invariant r.className == ctx.className && r.registeredConstants == ctx.registeredConstants
      invariant r.issued + r.queue == ctx.issued + ctx.queue
      decreases |r.queue|
    {
      var next := r.queue[0];
      assert r.queue == [next] + r.queue[1..];
      r := r.(queue := r.queue[1..], issued := r.issued + [next]);
    }
  }

  /** A constant bound and then drained is registered by exactly one native call, after the
      actions queued before it, carrying the class name, the enumeration name (empty when
      missing), the constant's name, its value and its flags marker. A rejected constant adds no
      call of its own. */
  method BindAndDrain(ctx: Context, c: ConstantInfo) returns (r: Outcome)
    ensures r.error == BindConstant(ctx, c).error
    ensures r.error.None? ==> r.context.issued == ctx.issued + ctx.queue + [RegisterIntegerConstant(ctx.className, EnumNameOf(c), c.name, c.value, c.isFlagsEnum)]
    ensures r.error.Some? ==> r.context.issued == ctx.issued + ctx.queue
  {
    var bound := BindConstant(ctx, c);
    var drained := Drain(bound.context);
    r := Outcome(drained, bound.error);
  }

  /** Binds constants in order, stopping at the first one that throws. */
  function BindAll(ctx: Context, cs: seq<ConstantInfo>): (r: Outcome)
    ensures r.context.issued == ctx.issued && r.context.className == ctx.className
    decreases |cs|
  {
    if cs == [] then Outcome(ctx, None)
    else
      var first := BindConstant(ctx, cs[0]);
      if first.error.Some? then first else BindAll(first.context, cs[1..])
  }

  /** The native calls of a list of constants, in order. */
  function CallsFor(className: string, cs: seq<ConstantInfo>): (r: seq<NativeCall>)
    ensures |r| == |cs|
    ensures forall i :: 0 <= i < |cs| ==> r[i] == CallFor(className, cs[i])
  {
    seq(|cs|, i requires 0 <= i < |cs| => CallFor(className, cs[i]))
  }

  /** A list of constants that can all be bound into a context: pairwise distinct names, none bound
      before, and every flags constant inside an enumeration. */
  predicate Bindable(registered: set<string>, cs: seq<ConstantInfo>)
  {
    && (forall i, j :: 0 <= i < j < |cs| ==> cs[i].name != cs[j].name)
    && (forall i :: 0 <= i < |cs| ==> cs[i].name !in registered && !FlagWithoutEnum(cs[i]))
  }

  /** The names of a list of constants. */
  function Names(cs: seq<ConstantInfo>): (r: set<string>)
    ensures forall i :: 0 <= i < |cs| ==> cs[i].name in r
    decreases |cs|
  {
    if cs == [] then {} else {cs[0].name} + Names(cs[1..])
  }

  /** A list is bindable when its head is, and its tail is once the head's name is taken. */
  lemma BindableStep(registered: set<string>, cs: seq<ConstantInfo>)
    requires cs != []
    ensures Bindable(registered, cs)
        <==> cs[0].name !in registered && !FlagWithoutEnum(cs[0]) && Bindable(registered + {cs[0].name}, cs[1..])
  {
    var rest := cs[1..];
    if cs[0].name !in registered && !FlagWithoutEnum(cs[0]) && Bindable(registered + {cs[0].name}, rest) {
      forall i, j | 0 <= i < j < |cs|
        ensures cs[i].name != cs[j].name
      {
        assert cs[j] == rest[j - 1];
        if i > 0 {
          assert cs[i] == rest[i - 1];
        }
      }
      forall i | 0 <= i < |cs|
        ensures cs[i].name !in registered && !FlagWithoutEnum(cs[i])
      {
        if i > 0 {
          assert cs[i] == rest[i - 1];
        }
      }
    }
    if Bindable(registered, cs) {
      forall i | 0 <= i < |rest|
        ensures rest[i].name !in registered + {cs[0].name}
      {
        assert rest[i] == cs[i + 1];
      }
    }
  }

  /** Binding a list of constants succeeds exactly when the list is bindable. */
  lemma {:induction false} BindAllSucceeds(ctx: Context, cs: seq<ConstantInfo>)
    ensures BindAll(ctx, cs).error.None? <==> Bindable(ctx.registeredConstants, cs)
    decreases |cs|
  {
    if cs != [] {
      var first := BindConstant(ctx, cs[0]);
      BindableStep(ctx.registeredConstants, cs);
      if first.error.None? {
        BindAllSucceeds(first.context, cs[1..]);
      }
    }
  }

  /** When binding a list of constants succeeds, every name is taken and the queue has grown by
      one call per constant, in the list's order. */
  lemma {:induction false} BindAllEffects(ctx: Context, cs: seq<ConstantInfo>)
    requires BindAll(ctx, cs).error.None?
    ensures BindAll(ctx, cs).context.queue == ctx.queue + CallsFor(ctx.className, cs)
    ensures BindAll(ctx, cs).context.registeredConstants == ctx.registeredConstants + Names(cs)
    decreases |cs|
  {
    if cs != [] {
      var first := BindConstant(ctx, cs[0]);
      var rest := cs[1..];
      assert first.error.None?;
      BindAllEffects(first.context, rest);
      assert CallsFor(ctx.className, cs) == [CallFor(ctx.className, cs[0])] + CallsFor(ctx.className, rest);
    }
  }
}

=== FILE: descriptors.dfy ===
/** The descriptors the generated code passes to the registration context — `ParameterInfo`,
    `ReturnInfo`, `PropertyInfo`, the object initializer that may follow each of them, the type
    arguments of a virtual binding and the thunk lambda of a non-virtual one — each as an abstract
    record and as the token list the generator prints for it. */
module Descriptors {
  import opened Wrappers
  import opened Text
  import opened ClassSpecs

  /** The fully qualified spelling of an enumeration member (`FullNameWithGlobal`). */
  function EnumToken(enumType: string, member: string): string
  {
    "global::Godot." + enumType + "." + member
  }

  function VariantTypeToken(variantType: string): string
  {
    EnumToken("VariantType", variantType)
  }

  /** `None` metadata is still printed, as `VariantTypeMetadata.None`, where the generator prints it. */
  function MetadataToken(metadata: Option<string>): string
  {
    EnumToken("VariantTypeMetadata", metadata.GetOr("None"))
  }

  /** An interned name built from an ASCII literal. */
  function StaticStringName(value: string): string
  {
    "global::Godot.StringName.CreateStaticFromAscii(\"" + value + "\"u8)"
  }

  // ---------------------------------------------------------------------------------------------
  // Object initializer

  /** One line of the `{ ... }` object initializer that can follow a descriptor. */
  datatype InitField =
    | HintField(hint: string)
    | HintStringField(hintString: string)
    | UsageField(usage: string)
    | ClassNameField(className: string)

  /** The position of a field in the initializer. */
  function FieldRank(f: InitField): nat
  {
    match f
    case HintField(_) => 0
    case HintStringField(_) => 1
    case UsageField(_) => 2
    case ClassNameField(_) => 3
  }

  /** `f` records a non-default attribute of `mi`, with `mi`'s value. */
  predicate FieldAgrees(f: InitField, mi: MarshalInfo)
  {
    match f
    case HintField(h) => mi.hint == Some(h)
    case HintStringField(s) => s != "" && mi.hintString == s
    case UsageField(u) => mi.usage == Some(u)
    case ClassNameField(c) => c != "" && mi.className == c
  }

  /** Hint, hint string, usage and class name all have their default values. */
  predicate HasDefaultAttributes(mi: MarshalInfo)
  {
    mi.hint.None? && mi.hintString == "" && mi.usage.None? && mi.className == ""
  }

  /** The initializer fields of a descriptor: one per non-default attribute, each carrying that
      attribute's value, in the order Hint, HintString, Usage, ClassName; none at all (so no
      initializer is printed) exactly when every attribute has its default. */
  function InitializerFields(mi: MarshalInfo): (r: seq<InitField>)
    ensures forall i, j :: 0 <= i < j < |r| ==> FieldRank(r[i]) < FieldRank(r[j])
    ensures forall i :: 0 <= i < |r| ==> FieldAgrees(r[i], mi)
    ensures mi.hint.Some? ==> HintField(mi.hint.value) in r
    ensures mi.hintString != "" ==> HintStringField(mi.hintString) in r
    ensures mi.usage.Some? ==> UsageField(mi.usage.value) in r
    ensures mi.className != "" ==> ClassNameField(mi.className) in r
    ensures r == [] <==> HasDefaultAttributes(mi)
  {
    (if mi.hint.Some? then [HintField(mi.hint.value)] else [])
    + (if mi.hintString != "" then [HintStringField(mi.hintString)] else [])
    + (if mi.usage.Some? then [UsageField(mi.usage.value)] else [])
    + (if mi.className != "" then [ClassNameField(mi.className)] else [])
  }

  /** The text of an initializer line. */
  function RenderField(f: InitField): string
  {
    match f
    case HintField(h) => "Hint = " + EnumToken("PropertyHint", h) + ","
    case HintStringField(s) => "HintString = \"" + s + "\","
    case UsageField(u) => "Usage = " + EnumToken("PropertyUsageFlags", u) + ","
    case ClassNameField(c) => "ClassName = " + StaticStringName(c) + ","
  }

  // ---------------------------------------------------------------------------------------------
  // Descriptor records

  datatype ParameterInfo = ParameterInfo(
    name: string, variantType: string, metadata: Option<string>, defaultValue: Option<string>,
    initializer: seq<InitField>)

  datatype ReturnInfo = ReturnInfo(variantType: string, metadata: Option<string>, initializer: seq<InitField>)

  datatype PropertyInfo = PropertyInfo(
    symbolName: string, variantType: string, metadata: Option<string>, initializer: seq<InitField>)

  /** A parameter is described under its override name when it has one, else under its symbol
      name, and carries its declared default. */
  function ParameterInfoOf(p: ParamSpec): (r: ParameterInfo)
    ensures p.nameOverride != "" ==> r.name == p.nameOverride
    ensures p.nameOverride == "" ==> r.name == p.symbolName
    ensures r.variantType == p.marshalInfo.variantType && r.metadata == p.marshalInfo.metadata
    ensures r.defaultValue == p.explicitDefault
    ensures r.initializer == InitializerFields(p.marshalInfo)
  {
    ParameterInfo(ResolvedName(p.symbolName, p.nameOverride), p.marshalInfo.variantType,
                  p.marshalInfo.metadata, p.explicitDefault, InitializerFields(p.marshalInfo))
  }

  /** The descriptors of a parameter list, one per parameter, in declaration order. */
  function ParameterInfos(ps: seq<ParamSpec>): (r: seq<ParameterInfo>)
    ensures |r| == |ps|
    ensures forall i :: 0 <= i < |ps| ==> r[i] == ParameterInfoOf(ps[i])
  {
    seq(|ps|, i requires 0 <= i < |ps| => ParameterInfoOf(ps[i]))
  }

  function ReturnInfoOf(p: ParamSpec): ReturnInfo
  {
    ReturnInfo(p.marshalInfo.variantType, p.marshalInfo.metadata, InitializerFields(p.marshalInfo))
  }

  function PropertyInfoOf(p: ParamSpec): PropertyInfo
  {
    PropertyInfo(p.symbolName, p.marshalInfo.variantType, p.marshalInfo.metadata, InitializerFields(p.marshalInfo))
  }

  // ---------------------------------------------------------------------------------------------
  // Constructor-argument token lists

  /** `ParameterInfo(name, type[, metadata][, default])`: the metadata argument appears when the
      metadata is not `None` or a default follows it (then even a `None` metadata is spelled out),
      and the default appears exactly when one is declared, always last. */
  function ParameterInfoArgs(pi: ParameterInfo): (r: seq<string>)
    ensures 2 <= |r| <= 4
    ensures r[0] == StaticStringName(pi.name) && r[1] == VariantTypeToken(pi.variantType)
    ensures |r| >= 3 <==> pi.metadata.Some? || pi.defaultValue.Some?
    ensures |r| >= 3 ==> r[2] == MetadataToken(pi.metadata)
    ensures |r| == 4 <==> pi.defaultValue.Some?
    ensures pi.defaultValue.Some? ==> r[|r| - 1] == pi.defaultValue.value
  {
    [StaticStringName(pi.name), VariantTypeToken(pi.variantType)]
    + (if pi.metadata.Some? || pi.defaultValue.Some? then [MetadataToken(pi.metadata)] else [])
    + (match pi.defaultValue case Some(d) => [d] case None => [])
  }

  /** `ReturnInfo(type[, metadata])`: the metadata argument appears exactly when it is not `None`;
      a return value never carries a default. */
  function ReturnInfoArgs(ri: ReturnInfo): (r: seq<string>)
    ensures 1 <= |r| <= 2
    ensures r[0] == VariantTypeToken(ri.variantType)
    ensures |r| == 2 <==> ri.metadata.Some?
    ensures |r| == 2 ==> r[1] == MetadataToken(ri.metadata)
  {
    [VariantTypeToken(ri.variantType)] + (if ri.metadata.Some? then [MetadataToken(ri.metadata)] else [])
  }

  /** `PropertyInfo(PropertyName.@name, type[, metadata])`: the property is named through its
      cached name, and the metadata argument appears exactly when it is not `None`. */
  function PropertyInfoArgs(pi: PropertyInfo): (r: seq<string>)
    ensures 2 <= |r| <= 3
    ensures r[0] == "PropertyName.@" + pi.symbolName && r[1] == VariantTypeToken(pi.variantType)
    ensures |r| == 3 <==> pi.metadata.Some?
    ensures |r| == 3 ==> r[2] == MetadataToken(pi.metadata)
  {
    ["PropertyName.@" + pi.symbolName, VariantTypeToken(pi.variantType)]
    + (if pi.metadata.Some? then [MetadataToken(pi.metadata)] else [])
  }

  /** The constructor call that creates a descriptor of the given bridge type. */
  function NewDescriptor(typeName: string, args: seq<string>): string
  {
    "new global::Godot.Bridge." + typeName + "(" + Join(args, ", ") + ")"
  }

  /** The arguments of a parameter descriptor spelled the way the generator appends them piece by
      piece: name, type, then `, metadata` and `, default` under their own conditions. */
  function ParameterInfoArgsAsWritten(pi: ParameterInfo): string
  {
    StaticStringName(pi.name) + ", " + VariantTypeToken(pi.variantType)
    + ((if pi.metadata.Some? || pi.defaultValue.Some? then ", " + MetadataToken(pi.metadata) else "")
       + (match pi.defaultValue case Some(d) => ", " + d case None => ""))
  }

  /** The piecewise spelling is the token list joined with commas. */
  lemma ParameterInfoArgsAsWrittenIsJoin(pi: ParameterInfo)
    ensures ParameterInfoArgsAsWritten(pi) == Join(ParameterInfoArgs(pi), ", ")
  {
    JoinedPieces(StaticStringName(pi.name), VariantTypeToken(pi.variantType), MetadataToken(pi.metadata),
                 pi.metadata.Some? || pi.defaultValue.Some?, pi.defaultValue);
  }

  /** The arguments of a return descriptor spelled the way the generator appends them: the type,
      then `, metadata` when the metadata is not `None`. */
  function ReturnInfoArgsAsWritten(ri: ReturnInfo): string
  {
    VariantTypeToken(ri.variantType) + (if ri.metadata.Some? then ", " + MetadataToken(ri.metadata) else "")
  }

  /** The piecewise spelling is the token list joined with commas. */
  lemma ReturnInfoArgsAsWrittenIsJoin(ri: ReturnInfo)
    ensures ReturnInfoArgsAsWritten(ri) == Join(ReturnInfoArgs(ri), ", ")
  {
    var t := VariantTypeToken(ri.variantType);
    if ri.metadata.Some? {
      var md := MetadataToken(ri.metadata);
      assert ReturnInfoArgs(ri) == [t, md];
      assert [t, md][1..] == [md];
      AppendAssoc(t, ", ", md);
    } else {
      assert ReturnInfoArgs(ri) == [t];
      AppendEmpty(t);
    }
  }

  /** The arguments of a property descriptor spelled the way the generator appends them: the
      cached name followed by a comma in one piece, the type, then `, metadata` when the metadata
      is not `None`. */
  function PropertyInfoArgsAsWritten(pi: PropertyInfo): string
  {
    ("PropertyName.@" + pi.symbolName + ", ") + VariantTypeToken(pi.variantType)
    + (if pi.metadata.Some? then ", " + MetadataToken(pi.metadata) else "")
  }

  /** The piecewise spelling is the token list joined with commas. */
  lemma PropertyInfoArgsAsWrittenIsJoin(pi: PropertyInfo)
    ensures PropertyInfoArgsAsWritten(pi) == Join(PropertyInfoArgs(pi), ", ")
  {
    var n := "PropertyName.@" + pi.symbolName;
    var t := VariantTypeToken(pi.variantType);
    var md := MetadataToken(pi.metadata);
    var rest := if pi.metadata.Some? then ", " + md else "";
    JoinedPieces(n, t, md, pi.metadata.Some?, None);
    assert [n, t] + (if pi.metadata.Some? then [md] else []) + [] == PropertyInfoArgs(pi);
    AppendEmpty(rest);
    AppendAssoc(n + ", " + t, rest, "");
  }

  /** `Join` of the ParameterInfo token shape, with the tokens left abstract. */
  lemma JoinedPieces(n: string, t: string, md: string, hasMd: bool, d: Option<string>)
    requires d.Some? ==> hasMd
    ensures Join([n, t] + (if hasMd then [md] else []) + (match d case Some(v) => [v] case None => []), ", ")
         == n + ", " + t + ((if hasMd then ", " + md else "") + (match d case Some(v) => ", " + v case None => ""))
  {
    var sep := ", ";
    if !hasMd {
      assert [n, t] + [] + [] == [n, t];
      JoinOfTwo(n, t, sep);
      assert n + sep + t == n + sep + t + ("" + "");
    } else {
      match d {
        case None =>
          assert [n, t] + [md] + [] == [n, t, md];
          JoinOfThree(n, t, md, sep);
          AppendAssoc(n + sep, t, sep + md);
          assert sep + md == sep + md + "";
        case Some(v) =>
          assert [n, t] + [md] + [v] == [n, t, md, v];
          JoinOfFour(n, t, md, v, sep);
      }
    }
  }

  lemma JoinOfTwo(n: string, t: string, sep: string)
    ensures Join([n, t], sep) == n + sep + t
  {
    assert [n, t][1..] == [t];
  }

  lemma JoinOfThree(n: string, t: string, md: string, sep: string)
    ensures Join([n, t, md], sep) == n + sep + (t + sep + md)
  {
    assert [n, t, md][1..] == [t, md];
    JoinOfTwo(t, md, sep);
  }

  lemma JoinOfFour(n: string, t: string, md: string, v: string, sep: string)
    ensures Join([n, t, md, v], sep) == n + sep + t + (sep + md + (sep + v))
  {
    assert [n, t, md, v][1..] == [t, md, v];
    JoinOfThree(t, md, v, sep);
    AppendAssoc(t, sep, md + sep + v);
    AppendAssoc(sep, md, sep + v);
    AppendAssoc(n + sep, t, sep + md + (sep + v));
  }

  /** Joining a token in front of a non-empty list puts one separator after it. */
  lemma JoinCons(x: string, rest: seq<string>, sep: string)
    requires |rest| > 0
    ensures Join([x] + rest, sep) == x + sep + Join(rest, sep)
  {
    assert ([x] + rest)[1..] == rest;
  }

  // ---------------------------------------------------------------------------------------------
  // Virtual bindings: type arguments

  function TypeNameOf(p: ParamSpec): string
  {
    p.marshalInfo.fullyQualifiedTypeName
  }

  /** The type arguments of a virtual binding: the parameter types in order, then the return type
      when there is one. */
  function TypeArgumentsOf(m: MethodSpec): (r: seq<string>)
    ensures |r| == |m.parameters| + (if m.returnParameter.Some? then 1 else 0)
    ensures forall i :: 0 <= i < |m.parameters| ==> r[i] == m.parameters[i].marshalInfo.fullyQualifiedTypeName
    ensures m.returnParameter.Some? ==> r[|r| - 1] == m.returnParameter.value.marshalInfo.fullyQualifiedTypeName
  {
    RenderEach(m.parameters, TypeNameOf)
    + (match m.returnParameter case Some(p) => [TypeNameOf(p)] case None => [])
  }

  /** The `<...>` list as the generator's loop writes it. */
  function TypeArgumentsAsWritten(m: MethodSpec): string
  {
    "<" + SeparatedLoop(m.parameters, TypeNameOf, ", ", m.returnParameter.Some?)
    + (match m.returnParameter case Some(p) => TypeNameOf(p) case None => "")
    + ">"
  }

  lemma TypeArgumentsAsWrittenIsJoin(m: MethodSpec)
    ensures TypeArgumentsAsWritten(m) == "<" + Join(TypeArgumentsOf(m), ", ") + ">"
  {
    match m.returnParameter {
      case Some(p) =>
        SeparatedLoopIsJoin(m.parameters, TypeNameOf, ", ", [TypeNameOf(p)]);
      case None =>
        SeparatedLoopIsJoin(m.parameters, TypeNameOf, ", ", []);
        assert RenderEach(m.parameters, TypeNameOf) + [] == RenderEach(m.parameters, TypeNameOf);
    }
  }

  // ---------------------------------------------------------------------------------------------
  // Non-virtual bindings: the thunk lambda

  /** The lambda that adapts the bound method: its parameter declarations, whether it returns a
      value, and the call it forwards to. */
  datatype Thunk = Thunk(
    parameters: seq<string>, returnsValue: bool, receiver: string, methodName: string, arguments: seq<string>)

  function ParamDecl(p: ParamSpec): string
  {
    p.marshalInfo.fullyQualifiedTypeName + " @" + p.symbolName
  }

  function ArgumentOf(p: ParamSpec): string
  {
    "@" + p.symbolName
  }

  /** A parameter's declaration is its type, a space, and the argument that passes it on. */
  lemma ParamDeclIsTypeAndArgument(p: ParamSpec)
    ensures ParamDecl(p) == p.marshalInfo.fullyQualifiedTypeName + " " + ArgumentOf(p)
  {
    var ty := p.marshalInfo.fullyQualifiedTypeName;
    AppendAssoc(ty, " ", "@" + p.symbolName);
    AppendAssoc(" ", "@", p.symbolName);
    assert " " + "@" == " @";
    AppendAssoc(ty, " @", p.symbolName);
  }

  lemma ParamDeclsAreTypesAndArguments(ps: seq<ParamSpec>)
    ensures forall i :: 0 <= i < |ps| ==> ParamDecl(ps[i]) == ps[i].marshalInfo.fullyQualifiedTypeName + " " + ArgumentOf(ps[i])
  {
    forall i | 0 <= i < |ps|
      ensures ParamDecl(ps[i]) == ps[i].marshalInfo.fullyQualifiedTypeName + " " + ArgumentOf(ps[i])
    {
      ParamDeclIsTypeAndArgument(ps[i]);
    }
  }

  /** How many parameters the thunk takes before the declared ones: `__instance`, unless the
      method is static. */
  function InstanceCount(m: MethodSpec): nat
  {
    if m.isStatic then 0 else 1
  }

  /** The thunk takes `__instance` first unless the method is static, then the declared
      parameters in order; it forwards exactly those parameters, in the same order, to the method
      on the instance (or on the class, for a static method), and returns a value exactly when the
      method has a return parameter. */
  function ThunkOf(className: string, m: MethodSpec): (t: Thunk)
    ensures |t.parameters| == InstanceCount(m) + |m.parameters|
    ensures !m.isStatic ==> t.parameters[0] == className + " __instance"
    ensures |t.arguments| == |m.parameters|
    ensures forall i :: 0 <= i < |m.parameters| ==> t.arguments[i] == "@" + m.parameters[i].symbolName
    ensures forall j :: InstanceCount(m) <= j < |t.parameters| ==>
              t.parameters[j] == m.parameters[j - InstanceCount(m)].marshalInfo.fullyQualifiedTypeName
                                 + " " + t.arguments[j - InstanceCount(m)]
    ensures t.returnsValue <==> m.returnParameter.Some?
    ensures t.receiver == (if m.isStatic then className else "__instance")
    ensures t.methodName == m.symbolName
  {
    ParamDeclsAreTypesAndArguments(m.parameters);
    var instance := if m.isStatic then [] else [className + " __instance"];
    Thunk(instance + RenderEach(m.parameters, ParamDecl), m.returnParameter.Some?,
          if m.isStatic then className else "__instance", m.symbolName,
          RenderEach(m.parameters, ArgumentOf))
  }

  /** The lambda header as the generator's statements write it. */
  function ThunkHeaderAsWritten(className: string, m: MethodSpec): string
  {
    "static ("
    + (if !m.isStatic then className + " __instance" else "")
    + (if |m.parameters| != 0
       then (if !m.isStatic then ", " else "") + SeparatedLoop(m.parameters, ParamDecl, ", ", false)
       else "")
    + ") =>"
  }

  lemma ThunkHeaderAsWrittenIsJoin(className: string, m: MethodSpec)
    ensures ThunkHeaderAsWritten(className, m) == "static (" + Join(ThunkOf(className, m).parameters, ", ") + ") =>"
  {
    var decls := RenderEach(m.parameters, ParamDecl);
    var inst := if m.isStatic then [] else [className + " __instance"];
    var loop := SeparatedLoop(m.parameters, ParamDecl, ", ", false);
    SeparatedLoopIsJoin(m.parameters, ParamDecl, ", ", []);
    assert decls + [] == decls;
    assert ThunkOf(className, m).parameters == inst + decls;
    DeclarationListIsJoin(className + " __instance", m.isStatic, decls, loop);
    var i := if !m.isStatic then className + " __instance" else "";
    var p := if |m.parameters| != 0 then (if !m.isStatic then ", " else "") + loop else "";
    assert ThunkHeaderAsWritten(className, m) == "static (" + i + p + ") =>";
    AppendAssoc("static (", i, p);
  }

  /** The two optional pieces of the lambda header, the instance declaration and the parameter
      list with its separating comma, spell the joined declarations. */
  lemma DeclarationListIsJoin(instance: string, isStatic: bool, decls: seq<string>, loop: string)
    requires loop == Join(decls, ", ")
    ensures (if !isStatic then instance else "") + (if |decls| != 0 then (if !isStatic then ", " else "") + loop else "")
         == Join((if isStatic then [] else [instance]) + decls, ", ")
  {
    if !isStatic && |decls| != 0 {
      JoinCons(instance, decls, ", ");
      AppendAssoc(instance, ", ", loop);
    } else if !isStatic {
      assert [instance] + decls == [instance];
    } else {
      assert [] + decls == decls;
    }
  }

  /** The forwarding call in the lambda body as the generator's statements write it. */
  function ForwardingCallAsWritten(className: string, m: MethodSpec): string
  {
    (if m.returnParameter.Some? then "return " else "")
    + (if m.isStatic then className else "__instance")
    + ".@" + m.symbolName + "("
    + (if |m.parameters| != 0 then SeparatedLoop(m.parameters, ArgumentOf, ", ", false) else "")
    + ")" + ";"
  }

  lemma ForwardingCallAsWrittenIsJoin(className: string, m: MethodSpec)
    ensures var t := ThunkOf(className, m);
            ForwardingCallAsWritten(className, m)
            == (if t.returnsValue then "return " else "") + t.receiver + ".@" + t.methodName
               + "(" + Join(t.arguments, ", ") + ");"
  {
    var args := RenderEach(m.parameters, ArgumentOf);
    SeparatedLoopIsJoin(m.parameters, ArgumentOf, ", ", []);
    assert args + [] == args;
    var loop := SeparatedLoop(m.parameters, ArgumentOf, ", ", false);
    assert (if |m.parameters| != 0 then loop else "") == Join(args, ", ");
    assert ThunkOf(className, m).arguments == args;
    assert ")" + ";" == ");";
  }

}

=== FILE: generated_layout.dfy ===
/** The text of a generated binding file, line by line, stated without the builder: each line's
    indentation and contents as a function of the class specification. The writer in
    `BindMethodsWriter` is proved to produce exactly these lines. */
module GeneratedLayout {
  import opened Wrappers
  import opened Text
  import opened IndentedText
  import opened ClassSpecs
  import opened Descriptors
  import opened BindOps

  // ---------------------------------------------------------------------------------------------
  // Containing types

  function Keyword(kind: ContainingKind): string
  {
    match kind
    case Interface => "interface "
    case Class => "class "
    case Struct => "struct "
    case RecordClass => "record class "
    case RecordStruct => "record struct "
  }

  function ContainingHeader(c: ContainingSymbol): string
  {
    "partial " + Keyword(c.kind) + c.symbolName
  }

  /** The lines that open the containing types, the outermost (last in the list) first, each one
      level deeper than the one before. */
  function HeaderLines(cts: seq<ContainingSymbol>, indent: int): (r: seq<Line>)
    ensures |r| == 2 * |cts|
  {
    seq(2 * |cts|, i requires 0 <= i < 2 * |cts| =>
      if i % 2 == 0 then Line(indent + i / 2, ContainingHeader(cts[|cts| - 1 - i / 2]))
      else Line(indent + i / 2, "{"))
  }

  /** Adding one more type directly around the class (the new innermost, first in the list) adds
      its header and `{` after the existing ones, one level deeper than all of them. */
  lemma HeaderLinesExtend(c: ContainingSymbol, rest: seq<ContainingSymbol>, indent: int)
    ensures HeaderLines([c] + rest, indent)
         == HeaderLines(rest, indent) + [Line(indent + |rest|, ContainingHeader(c)), Line(indent + |rest|, "{")]
  {
    var lhs := HeaderLines([c] + rest, indent);
    var rhs := HeaderLines(rest, indent) + [Line(indent + |rest|, ContainingHeader(c)), Line(indent + |rest|, "{")];
    forall i | 0 <= i < |lhs|
      ensures lhs[i] == rhs[i]
    {
      if i < 2 * |rest| {
        assert ([c] + rest)[|rest| - i / 2] == rest[|rest| - 1 - i / 2];
      }
    }
  }

  /** The lines that close `n` blocks opened from indentation `indent - n`: innermost first. */
  function ClosingLines(n: nat, indent: int): (r: seq<Line>)
    ensures |r| == n
  {
    seq(n, i requires 0 <= i < n => Line(indent - 1 - i, "}"))
  }

  // ---------------------------------------------------------------------------------------------
  // Cached names

  function NameClassName(category: NameCategory): string
  {
    match category
    case MethodNames => "MethodName"
    case PropertyNames => "PropertyName"
    case SignalNames => "SignalName"
  }

  function NameClassHeader(baseType: string, category: NameCategory): string
  {
    "public new class " + NameClassName(category) + " : " + baseType + "." + NameClassName(category)
  }

  function CachedNameLine(op: BindOp): string
  {
    match op
    case CachedName(_, symbolName, value) =>
      "public static global::Godot.StringName @" + symbolName + " { get; } = " + StaticStringName(value) + ";"
    case _ => ""
  }

  /** The number of lines the class of one category takes: none for an empty category, otherwise
      the header, the braces and one line per name. */
  function NameClassSize(count: nat): nat
  {
    if count == 0 then 0 else count + 3
  }

  /** The nested class of one category of cached names: nothing for an empty category, otherwise
      its header, `{`, one line per name in order one level deeper, and `}`. */
  function NameClassLines(indent: int, baseType: string, category: NameCategory, group: seq<BindOp>): (r: seq<Line>)
    ensures |r| == NameClassSize(|group|)
  {
    if group == [] then []
    else [Line(indent, NameClassHeader(baseType, category)), Line(indent, "{")] + NameLines(indent + 1, group) + [Line(indent, "}")]
  }

  /** One cached-name line per entry of `group`, in order. */
  function NameLines(indent: int, group: seq<BindOp>): (r: seq<Line>)
    ensures |r| == |group|
    ensures forall i :: 0 <= i < |group| ==> r[i] == Line(indent, CachedNameLine(group[i]))
  {
    seq(|group|, i requires 0 <= i < |group| => Line(indent, CachedNameLine(group[i])))
  }

  /** The header and brace, then the names one level in (at `inner`) written line by line from
      their rendered `texts`, then the closing brace, are the name class's text. */
  lemma NameClassLinesFrom(indent: int, inner: int, baseType: string, category: NameCategory, group: seq<BindOp>,
                           texts: seq<string>, start: seq<Line>, afterOpen: seq<Line>, filled: seq<Line>, end: seq<Line>)
    requires group != [] && inner == indent + 1 && texts == RenderEach(group, CachedNameLine)
    requires afterOpen == start + [Line(indent, NameClassHeader(baseType, category)), Line(indent, "{")]
    requires |filled| == |afterOpen| + |texts| && afterOpen <= filled
    requires forall i :: 0 <= i < |texts| ==> filled[|afterOpen| + i] == Line(inner, texts[i])
    requires end == filled + [Line(indent, "}")]
    ensures end == start + NameClassLines(indent, baseType, category, group)
  {
    var head := [Line(indent, NameClassHeader(baseType, category)), Line(indent, "{")];
    var names := NameLines(inner, group);
    forall i | 0 <= i < |filled|
      ensures filled[i] == (afterOpen + names)[i]
    {
      if i >= |afterOpen| {
        assert filled[|afterOpen| + (i - |afterOpen|)] == Line(inner, texts[i - |afterOpen|]);
      }
    }
    assert filled == afterOpen + names;
    AppendAssoc(start, head, names);
    AppendAssoc(start, head + names, [Line(indent, "}")]);
  }

  /** The name classes of the methods, the properties and the signals, in that order. */
  function CachedNamesLines(indent: int, spec: ClassSpec): seq<Line>
  {
    NameClassLines(indent, spec.fullyQualifiedBaseTypeName, MethodNames, NameGroup(spec, MethodNames))
    + NameClassLines(indent, spec.fullyQualifiedBaseTypeName, PropertyNames, NameGroup(spec, PropertyNames))
    + NameClassLines(indent, spec.fullyQualifiedBaseTypeName, SignalNames, NameGroup(spec, SignalNames))
  }

  // ---------------------------------------------------------------------------------------------
  // Descriptors

  /** A descriptor as printed: the `new ...Info(...)` call and its object-initializer fields. */
  datatype Descriptor = Descriptor(call: string, fields: seq<InitField>)

  function ParameterDescriptor(pi: ParameterInfo): Descriptor
  {
    Descriptor(NewDescriptor("ParameterInfo", ParameterInfoArgs(pi)), pi.initializer)
  }

  function ParameterDescriptors(ps: seq<ParameterInfo>): (r: seq<Descriptor>)
    ensures |r| == |ps|
    ensures forall i :: 0 <= i < |ps| ==> r[i] == ParameterDescriptor(ps[i])
  {
    seq(|ps|, i requires 0 <= i < |ps| => ParameterDescriptor(ps[i]))
  }

  function ReturnDescriptor(ri: ReturnInfo): Descriptor
  {
    Descriptor(NewDescriptor("ReturnInfo", ReturnInfoArgs(ri)), ri.initializer)
  }

  /** A method registration's descriptors: its parameters' in order, then its return's. */
  function MethodDescriptors(op: BindOp): (r: seq<Descriptor>)
    requires op.BindMethod?
    ensures |r| == |op.parameters| + (if op.returnInfo.Some? then 1 else 0)
    ensures r[..|op.parameters|] == ParameterDescriptors(op.parameters)
    ensures op.returnInfo.Some? ==> r[|r| - 1] == ReturnDescriptor(op.returnInfo.value)
  {
    ParameterDescriptors(op.parameters)
    + (match op.returnInfo
       case Some(ri) => [ReturnDescriptor(ri)]
       case None => [])
  }

  function FieldLines(indent: int, fields: seq<InitField>): (r: seq<Line>)
    ensures |r| == |fields|
    ensures forall i :: 0 <= i < |fields| ==> r[i] == Line(indent, RenderField(fields[i]))
  {
    seq(|fields|, i requires 0 <= i < |fields| => Line(indent, RenderField(fields[i])))
  }

  /** The finished lines of a descriptor whose text `text` starts a line at indentation `first`,
      inside a block at `indent`: nothing without fields, otherwise that line, `{` and one line
      per field one level deeper. What remains is the line the descriptor ends on. */
  function DescriptorOpening(first: int, indent: int, text: string, fields: seq<InitField>): (r: seq<Line>)
    ensures |r| == (if fields == [] then 0 else |fields| + 2)
  {
    if fields == [] then []
    else [Line(first, text), Line(indent, "{")] + FieldLines(indent + 1, fields)
  }

  /** The line a descriptor ends on: its own first line without fields, the initializer's `}`
      at the block's indentation with them. */
  function DescriptorEndIndent(first: int, indent: int, fields: seq<InitField>): int
  {
    if fields == [] then first else indent
  }

  function DescriptorEndText(text: string, fields: seq<InitField>): string
  {
    if fields == [] then text else "}"
  }

  /** A descriptor followed by `suffix`, which ends the line it ends on. */
  function DescriptorLines(first: int, indent: int, text: string, fields: seq<InitField>, suffix: string): (r: seq<Line>)
    ensures |r| == (if fields == [] then 1 else |fields| + 3)
    ensures r[|r| - 1] == Line(DescriptorEndIndent(first, indent, fields), DescriptorEndText(text, fields) + suffix)
  {
    DescriptorOpening(first, indent, text, fields)
    + [Line(DescriptorEndIndent(first, indent, fields), DescriptorEndText(text, fields) + suffix)]
  }

  /** A list of descriptors, one after the other at `indent`: each but the last followed by `,`,
      the last by `last`. */
  function DescriptorListLines(indent: int, ds: seq<Descriptor>, last: string): (r: seq<Line>)
    ensures ds == [] <==> r == []
    decreases |ds|
  {
    if ds == [] then []
    else
      DescriptorListLines(indent, ds[..|ds| - 1], ",")
      + DescriptorLines(indent, indent, ds[|ds| - 1].call, ds[|ds| - 1].fields, last)
  }

  lemma DescriptorListSnoc(indent: int, ds: seq<Descriptor>, d: Descriptor, last: string)
    ensures DescriptorListLines(indent, ds + [d], last)
         == DescriptorListLines(indent, ds, ",") + DescriptorLines(indent, indent, d.call, d.fields, last)
  {
    assert (ds + [d])[..|ds|] == ds;
  }

  /** A list written up to the opening of its last descriptor and then ended by `last` is the
      whole list. */
  lemma DescriptorListFrom(indent: int, ds: seq<Descriptor>, d: Descriptor, last: string, start: seq<Line>, end: seq<Line>)
    requires end == start + DescriptorListLines(indent, ds, ",") + DescriptorOpening(indent, indent, d.call, d.fields)
                    + [Line(DescriptorEndIndent(indent, indent, d.fields), DescriptorEndText(d.call, d.fields) + last)]
    ensures end == start + DescriptorListLines(indent, ds + [d], last)
  {
    var listed := DescriptorListLines(indent, ds, ",");
    var opening := DescriptorOpening(indent, indent, d.call, d.fields);
    var ending := [Line(DescriptorEndIndent(indent, indent, d.fields), DescriptorEndText(d.call, d.fields) + last)];
    DescriptorListSnoc(indent, ds, d, last);
    AppendAssoc(start, listed, opening + ending);
    AppendAssoc(start + listed, opening, ending);
  }

  // ---------------------------------------------------------------------------------------------
  // Registration calls

  function DispatchMethodName(d: Dispatch): string
  {
    match d
    case Static => "BindStaticMethod"
    case Virtual => "BindVirtualMethod"
    case Instance => "BindMethod"
  }

  function ConstructorLine(op: BindOp): string
    requires op.BindConstructor?
  {
    match op.form
    case NewInstance => "context.BindConstructor(() => new " + op.className + "());"
    case Factory(f) => "context.BindConstructor(() => " + op.className + ".@" + f + "());"
  }

  function ForwardingCall(t: Thunk): string
  {
    (if t.returnsValue then "return " else "") + t.receiver + ".@" + t.methodName + "(" + Join(t.arguments, ", ") + ");"
  }

  /** The thunk lambda: its header, a body that forwards the call one level deeper, and the end
      of the registration call. */
  function ThunkLines(indent: int, t: Thunk): seq<Line>
  {
    [ Line(indent, "static (" + Join(t.parameters, ", ") + ") =>"),
      Line(indent, "{"),
      Line(indent + 1, ForwardingCall(t)),
      Line(indent, "});") ]
  }

  /** The first line of a method registration up to its first argument. */
  function MethodHead(op: BindOp): string
    requires op.BindMethod?
  {
    "context." + DispatchMethodName(op.dispatch)
    + (if op.dispatch == Virtual && !Abbreviated(op) then "<" + Join(op.typeArguments, ", ") + ">" else "")
    + "(MethodName.@" + op.symbolName
  }

  /** One method registration. The abbreviated virtual form is a single line. Every other form
      is its head and a comma, then its descriptors one level deeper, each but the last ended by a
      comma; a virtual binding ends the last with `);`, any other ends it with a comma and
      continues with the thunk. */
  function MethodLines(indent: int, op: BindOp): seq<Line>
    requires op.BindMethod?
  {
    if Abbreviated(op) then [Line(indent, MethodHead(op) + ");")]
    else
      [Line(indent, MethodHead(op) + ",")]
      + DescriptorListLines(indent + 1, MethodDescriptors(op), if op.dispatch == Virtual then ");" else ",")
      + (if op.dispatch != Virtual && op.thunk.Some? then ThunkLines(indent + 1, op.thunk.value) else [])
  }

  /** The text a property registration starts with, up to the end of its descriptor's call. */
  function PropertyCall(op: BindOp): string
    requires op.BindProperty?
  {
    "context.BindProperty(" + NewDescriptor("PropertyInfo", PropertyInfoArgs(op.info))
  }

  /** The getter lambda and the setter lambda, the setter ending the registration call. */
  function AccessorLines(indent: int, op: BindOp): seq<Line>
    requires op.BindProperty?
  {
    [ Line(indent, "static (" + op.className + " __instance) =>"),
      Line(indent, "{"),
      Line(indent + 1, "return __instance.@" + op.info.symbolName + ";"),
      Line(indent, "},"),
      Line(indent, "static (" + op.className + " __instance, " + op.typeName + " value) =>"),
      Line(indent, "{"),
      Line(indent + 1, "__instance.@" + op.info.symbolName + " = value;"),
      Line(indent, "});") ]
  }

  /** One property registration: the descriptor opened on the call's line, then the getter and
      the setter lambdas one level deeper. */
  function PropertyLines(indent: int, op: BindOp): seq<Line>
    requires op.BindProperty?
  {
    DescriptorLines(indent, indent + 1, PropertyCall(op), op.info.initializer, ",") + AccessorLines(indent + 1, op)
  }

  /** A property's descriptor ended by a comma, then its accessors, is the property's text. */
  lemma PropertyLinesFrom(indent: int, op: BindOp, start: seq<Line>, afterDescriptor: seq<Line>, end: seq<Line>)
    requires op.BindProperty?
    requires afterDescriptor == start + DescriptorOpening(indent, indent + 1, PropertyCall(op), op.info.initializer)
               + [Line(DescriptorEndIndent(indent, indent + 1, op.info.initializer),
                       DescriptorEndText(PropertyCall(op), op.info.initializer) + ",")]
    requires end == afterDescriptor + AccessorLines(indent + 1, op)
    ensures end == start + PropertyLines(indent, op)
  {
    var opening := DescriptorOpening(indent, indent + 1, PropertyCall(op), op.info.initializer);
    var ending := [Line(DescriptorEndIndent(indent, indent + 1, op.info.initializer),
                        DescriptorEndText(PropertyCall(op), op.info.initializer) + ",")];
    AppendAssoc(start, opening, ending);
    AppendAssoc(start, opening + ending, AccessorLines(indent + 1, op));
  }

  /** The start of a signal registration up to the end of the signal's name. */
  function SignalHead(op: BindOp): string
    requires op.BindSignal?
  {
    "context.BindSignal(new global::Godot.Bridge.SignalInfo(SignalName.@" + op.symbolName + ")"
  }

  /** One signal registration: a single line without parameters, otherwise an initializer whose
      `Parameters` block lists every parameter's descriptor followed by a comma. */
  function SignalLines(indent: int, op: BindOp): seq<Line>
    requires op.BindSignal?
  {
    if op.parameters == [] then [Line(indent, SignalHead(op) + ");")]
    else
      [Line(indent, SignalHead(op)), Line(indent, "{"), Line(indent + 1, "Parameters ="), Line(indent + 1, "{")]
      + DescriptorListLines(indent + 2, ParameterDescriptors(op.parameters), ",")
      + [Line(indent + 1, "},"), Line(indent, "});")]
  }

  /** A signal's head and open `Parameters` block, its parameters' descriptors, and the two
      closing lines, are the signal's text. */
  lemma SignalLinesFrom(indent: int, op: BindOp, start: seq<Line>, afterOpen: seq<Line>, afterList: seq<Line>, end: seq<Line>)
    requires op.BindSignal? && op.parameters != []
    requires afterOpen == start + [Line(indent, SignalHead(op))] + [Line(indent, "{")]
                          + [Line(indent + 1, "Parameters =")] + [Line(indent + 1, "{")]
    requires afterList == afterOpen + DescriptorListLines(indent + 2, ParameterDescriptors(op.parameters), ",")
    requires end == afterList + [Line(indent + 1, "},")] + [Line(indent, "});")]
    ensures end == start + SignalLines(indent, op)
  {
    var open := [Line(indent, SignalHead(op)), Line(indent, "{"), Line(indent + 1, "Parameters ="), Line(indent + 1, "{")];
    var listed := DescriptorListLines(indent + 2, ParameterDescriptors(op.parameters), ",");
    var close := [Line(indent + 1, "},"), Line(indent, "});")];
    AppendFourSingles(start, Line(indent, SignalHead(op)), Line(indent, "{"), Line(indent + 1, "Parameters ="), Line(indent + 1, "{"));
    AppendTwoSingles(afterList, Line(indent + 1, "},"), Line(indent, "});"));
    AppendAssoc(start, open + listed, close);
    AppendAssoc(start, open, listed);
  }

  /** A method's head line, its descriptor list one level deeper (at `inner`) and, for a bound
      method with a thunk, the thunk, are the method's text. */
  lemma MethodLinesFrom(indent: int, inner: int, op: BindOp, start: seq<Line>, afterHead: seq<Line>,
                        afterList: seq<Line>, end: seq<Line>)
    requires op.BindMethod? && !Abbreviated(op) && inner == indent + 1
    requires afterHead == start + [Line(indent, MethodHead(op) + ",")]
    requires afterList == afterHead + DescriptorListLines(inner, MethodDescriptors(op), if op.dispatch == Virtual then ");" else ",")
    requires op.dispatch != Virtual && op.thunk.Some? ==> end == afterList + ThunkLines(inner, op.thunk.value)
    requires !(op.dispatch != Virtual && op.thunk.Some?) ==> end == afterList
    ensures end == start + MethodLines(indent, op)
  {
    var first := [Line(indent, MethodHead(op) + ",")];
    var listed := DescriptorListLines(indent + 1, MethodDescriptors(op), if op.dispatch == Virtual then ");" else ",");
    var thunk := if op.dispatch != Virtual && op.thunk.Some? then ThunkLines(indent + 1, op.thunk.value) else [];
    AppendEmpty(afterList);
    AppendAssoc(start, first + listed, thunk);
    AppendAssoc(start, first, listed);
  }

  /** The lines of one registration call; a cached name is not a call and has none here. */
  function OpLines(indent: int, op: BindOp): seq<Line>
  {
    match op
    case CachedName(_, _, _) => []
    case BindConstructor(_, _) => [Line(indent, ConstructorLine(op))]
    case BindMethod(_, _, _, _, _, _) => MethodLines(indent, op)
    case BindProperty(_, _, _) => PropertyLines(indent, op)
    case BindSignal(_, _) => SignalLines(indent, op)
  }

  /** The lines of each of `xs`, one after the other. */
  function Flatten<T>(xs: seq<T>, lines: T -> seq<Line>): seq<Line>
    decreases |xs|
  {
    if xs == [] then [] else Flatten(xs[..|xs| - 1], lines) + lines(xs[|xs| - 1])
  }

  /** Flattening two sequences one after the other flattens their concatenation. */
  lemma {:induction false} FlattenAppend<T>(a: seq<T>, b: seq<T>, lines: T -> seq<Line>)
    ensures Flatten(a + b, lines) == Flatten(a, lines) + Flatten(b, lines)
    decreases |b|
  {
    if b == [] {
      assert a + b == a;
    } else {
      var n := |b| - 1;
      assert (a + b)[..|a + b| - 1] == a + b[..n];
      assert (a + b)[|a + b| - 1] == b[n];
      FlattenAppend(a, b[..n], lines);
    }
  }

  /** `OpLines` at a fixed indentation, to be flattened over a stream of calls. */
  function OpLinesAt(indent: int): BindOp -> seq<Line>
  {
    op => OpLines(indent, op)
  }

  /** The body of `BindMethods` is the constructor's registration, then the methods', the
      properties' and the signals', each section written as its own stream. */
  lemma CallLinesBySection(indent: int, spec: ClassSpec)
    requires ValidSpec(spec)
    ensures CallLines(indent, spec)
         == Flatten(ConstructorOps(spec), OpLinesAt(indent)) + Flatten(MethodOps(spec), OpLinesAt(indent))
            + Flatten(PropertyOps(spec), OpLinesAt(indent)) + Flatten(SignalOps(spec), OpLinesAt(indent))
  {
    var k, m, p, s := ConstructorOps(spec), MethodOps(spec), PropertyOps(spec), SignalOps(spec);
    var lines := OpLinesAt(indent);
    FlattenAppend(k + m + p, s, lines);
    FlattenAppend(k + m, p, lines);
    FlattenAppend(k, m, lines);
  }

  // ---------------------------------------------------------------------------------------------
  // The whole file

  const BindMethodsSignature := "internal static void BindMethods(global::Godot.Bridge.ClassDBRegistrationContext context)"

  /** The nullable-context directive and, for a class outside the global namespace, the file-scoped
      namespace declaration, each followed by an empty line. */
  function PrologueLines(indent: int, spec: ClassSpec): (r: seq<Line>)
    ensures |r| == (if spec.fullyQualifiedNamespace == "" then 2 else 4)
  {
    [Line(indent, "#nullable enable"), Line(indent, "")]
    + (if spec.fullyQualifiedNamespace == "" then []
       else [Line(indent, "namespace " + spec.fullyQualifiedNamespace + ";"), Line(indent, "")])
  }

  /** The registration calls in the body of `BindMethods`, in the order of `CallOps`. */
  function CallLines(indent: int, spec: ClassSpec): seq<Line>
    requires ValidSpec(spec)
  {
    Flatten(CallOps(spec), OpLinesAt(indent))
  }

  /** The `BindMethods` declaration: its signature and block, holding the registration calls one
      level inside the signature. */
  function BindMethodsLines(indent: int, spec: ClassSpec): seq<Line>
    requires ValidSpec(spec)
  {
    [Line(indent, BindMethodsSignature), Line(indent, "{")] + CallLines(indent + 1, spec) + [Line(indent, "}")]
  }

  /** The signature and brace, the calls one level in (at `body`) and the closing brace, appended
      one after another, are the declaration's text. */
  lemma BindMethodsLinesFrom(indent: int, body: int, spec: ClassSpec, start: seq<Line>, afterOpen: seq<Line>,
                             afterCalls: seq<Line>, end: seq<Line>)
    requires ValidSpec(spec) && body == indent + 1
    requires afterOpen == start + [Line(indent, BindMethodsSignature), Line(indent, "{")]
    requires afterCalls == afterOpen + CallLines(body, spec)
    requires end == afterCalls + [Line(indent, "}")]
    ensures end == start + BindMethodsLines(indent, spec)
  {
    var a := [Line(indent, BindMethodsSignature), Line(indent, "{")];
    AppendAssoc(start, a, CallLines(body, spec));
    AppendAssoc(start, a + CallLines(body, spec), [Line(indent, "}")]);
  }

  /** The partial class: its header and block, the name classes, and `BindMethods`, all one level
      inside the class header. */
  function ClassLines(indent: int, spec: ClassSpec): seq<Line>
    requires ValidSpec(spec)
  {
    [Line(indent, "partial class " + spec.symbolName), Line(indent, "{")]
    + CachedNamesLines(indent + 1, spec) + BindMethodsLines(indent + 1, spec)
    + [Line(indent, "}")]
  }

  /** The class header and brace, its body one level in (at `inner`) — the cached names, then
      `BindMethods` — and the closing brace, appended one after another, are the class's text. */
  lemma ClassLinesFrom(indent: int, inner: int, spec: ClassSpec, start: seq<Line>, afterOpen: seq<Line>,
                       afterBody: seq<Line>, end: seq<Line>)
    requires ValidSpec(spec) && inner == indent + 1
    requires afterOpen == start + [Line(indent, "partial class " + spec.symbolName), Line(indent, "{")]
    requires afterBody == afterOpen + (CachedNamesLines(inner, spec) + BindMethodsLines(inner, spec))
    requires end == afterBody + [Line(indent, "}")]
    ensures end == start + ClassLines(indent, spec)
  {
    var head := [Line(indent, "partial class " + spec.symbolName), Line(indent, "{")];
    var names := CachedNamesLines(inner, spec);
    var methods := BindMethodsLines(inner, spec);
    AppendAssoc(start, head, names + methods);
    AppendAssoc(head, names, methods);
    AppendAssoc(start, head + (names + methods), [Line(indent, "}")]);
  }

  /** The whole file: the prologue, the containing types opened outermost first, the class one
      level inside the innermost of them, and the containing types closed innermost first. */
  function FileLines(indent: int, spec: ClassSpec): seq<Line>
    requires ValidSpec(spec)
  {
    NestedFileLines(indent, |spec.containingTypes|, spec)
  }

  /** `FileLines` with the number of containing types named: the class sits `depth` levels in. */
  function NestedFileLines(indent: int, depth: nat, spec: ClassSpec): seq<Line>
    requires ValidSpec(spec)
  {
    PrologueLines(indent, spec) + HeaderLines(spec.containingTypes, indent)
    + ClassLines(indent + depth, spec) + ClosingLines(depth, indent + depth)
  }

  /** Text appended piece by piece, in the order of `NestedFileLines`, is `NestedFileLines`. */
  lemma FileLinesFrom(indent: int, depth: nat, spec: ClassSpec, start: seq<Line>, afterPrologue: seq<Line>,
                      afterHeaders: seq<Line>, afterClass: seq<Line>, end: seq<Line>)
    requires ValidSpec(spec)
    requires afterPrologue == start + PrologueLines(indent, spec)
    requires afterHeaders == afterPrologue + HeaderLines(spec.containingTypes, indent)
    requires afterClass == afterHeaders + ClassLines(indent + depth, spec)
    requires end == afterClass + ClosingLines(depth, indent + depth)
    ensures end == start + NestedFileLines(indent, depth, spec)
  {
    AppendFour(start, PrologueLines(indent, spec), HeaderLines(spec.containingTypes, indent),
               ClassLines(indent + depth, spec), ClosingLines(depth, indent + depth),
               afterPrologue, afterHeaders, afterClass, end);
  }
}

=== FILE: indented_text.dfy ===
/** A model of the generator's indented string builder: finished lines, the line being written,
    the current indentation and the number of blocks opened with `OpenBlock` and not yet closed. */
module IndentedText {

  /** A finished line of generated text and the indentation it was started at. */
  datatype Line = Line(indent: int, text: string)

  /** `pending` is the unfinished current line and `pendingIndent` the indentation it was started
      at (meaningful only while `pending` is non-empty). */
  datatype Builder = Builder(lines: seq<Line>, pending: string, pendingIndent: int, indent: int, depth: int)

  const Empty: Builder := Builder([], "", 0, 0, 0)

  /** The indentation the current line is (or will be) written at. */
  function StartIndent(b: Builder): int
  {
    if b.pending == "" then b.indent else b.pendingIndent
  }

  /** Writes `s` onto the current line. */
  function Append(b: Builder, s: string): (r: Builder)
    ensures r.lines == b.lines && r.indent == b.indent && r.depth == b.depth
    ensures r.pending == b.pending + s
    ensures StartIndent(r) == StartIndent(b)
  {
    if b.pending == "" then b.(pending := s, pendingIndent := b.indent)
    else b.(pending := b.pending + s)
  }

  /** Writes `s` onto the current line and finishes it. */
  function AppendLine(b: Builder, s: string): (r: Builder)
    ensures r.lines == b.lines + [Line(StartIndent(b), b.pending + s)]
    ensures r.pending == ""
    ensures r.indent == b.indent && r.depth == b.depth
  {
    var a := Append(b, s);
    a.(lines := a.lines + [Line(StartIndent(a), a.pending)], pending := "")
  }

  /** `Indent++`. */
  function Indent(b: Builder): (r: Builder)
    ensures r.lines == b.lines && r.pending == b.pending && StartIndent(r) >= StartIndent(b)
    ensures r.indent == b.indent + 1 && r.depth == b.depth
  {
    b.(indent := b.indent + 1)
  }

  /** `Indent--`. */
  function Dedent(b: Builder): (r: Builder)
    ensures r.lines == b.lines && r.pending == b.pending
    ensures r.indent == b.indent - 1 && r.depth == b.depth
  {
    b.(indent := b.indent - 1)
  }

  /** Opens a brace block: a `{` line, then one level deeper. */
  function OpenBlock(b: Builder): (r: Builder)
    ensures r.lines == b.lines + [Line(StartIndent(b), b.pending + "{")]
    ensures r.pending == ""
    ensures r.indent == b.indent + 1 && r.depth == b.depth + 1
  {
    var a := Indent(AppendLine(b, "{"));
    a.(depth := a.depth + 1)
  }

  /** A header line, then a brace block opened under it: the shape of every `partial class` and
      `BindMethods` header the generator writes. */
  function OpenBlockUnder(b: Builder, header: string): (r: Builder)
    ensures b.pending == "" ==> r.lines == b.lines + [Line(b.indent, header), Line(b.indent, "{")]
    ensures b.lines <= r.lines
    ensures r.pending == ""
    ensures r.indent == b.indent + 1 && r.depth == b.depth + 1
  {
    var a := AppendLine(b, header);
    assert a.pending + "{" == "{";
    assert b.pending == "" ==> a.lines + [Line(a.indent, "{")] == b.lines + [Line(b.indent, header), Line(b.indent, "{")];
    OpenBlock(a)
  }

  /** Closes the innermost brace block: one level shallower, then a `}` line. */
  function CloseBlock(b: Builder): (r: Builder)
    ensures b.pending == "" ==> r.lines == b.lines + [Line(b.indent - 1, "}")]
    ensures r.pending == ""
    ensures r.indent == b.indent - 1 && r.depth == b.depth - 1
  {
    var a := AppendLine(Dedent(b), "}");
    a.(depth := a.depth - 1)
  }

  /** Writes each of `texts` as a line of its own. */
  function AppendLines(b: Builder, texts: seq<string>): (r: Builder)
    ensures b.pending == "" ==> |r.lines| == |b.lines| + |texts|
    ensures b.pending == "" ==> forall i :: 0 <= i < |texts| ==> r.lines[|b.lines| + i] == Line(b.indent, texts[i])
    ensures b.lines <= r.lines
    ensures |texts| > 0 || b.pending == "" ==> r.pending == ""
    ensures r.indent == b.indent && r.depth == b.depth
    decreases |texts|
  {
    if |texts| == 0 then b else AppendLines(AppendLine(b, texts[0]), texts[1..])
  }

  /** What every statement-level writer of the generator promises: it leaves the indentation and
      the open-block depth as it found them, only adds lines, and finishes the lines it starts. */
  predicate Balanced(b: Builder, r: Builder)
  {
    && r.indent == b.indent
    && r.depth == b.depth
    && b.lines <= r.lines
    && (b.pending == "" ==> r.pending == "")
  }
}

=== FILE: summator.dfy ===
/** The Summator sample extension class: a counter that the engine can create, add to, reset and
    read, together with the registration sequence its author wrote by hand, which is one instance
    of what the binding generator produces for such a class. */
module SummatorSample {
  import opened Wrappers
  import opened ClassSpecs
  import opened Descriptors
  import opened BindOps

  // ---------------------------------------------------------------------------------------------
  // 32-bit arithmetic

  const TwoTo32: int := 0x1_0000_0000
  const TwoTo31: int := 0x8000_0000

  /** The values of a C# `int`. */
  type Int32 = x: int | -0x8000_0000 <= x < 0x8000_0000

  /** The C# `int` that an unchecked addition leaves: the unique 32-bit value congruent to `x`
      modulo 2^32, equal to `x` itself when `x` fits. */
  function Wrap32(x: int): (r: Int32)
    ensures (r - x) % TwoTo32 == 0
    ensures -TwoTo31 <= x < TwoTo31 ==> r == x
  {
    (x + TwoTo31) % TwoTo32 - TwoTo31
  }

  /** Wrapping once more after adding to a wrapped value is the same as wrapping the exact sum:
      the counter's value depends only on the total added, not on when it overflowed. */
  lemma Wrap32Add(x: int, y: int)
    ensures Wrap32(Wrap32(x) + y) == Wrap32(x + y)
  {
    var k := (x + TwoTo31) / TwoTo32;
    assert Wrap32(x) == x - k * TwoTo32;
    ModShift(x + y + TwoTo31, k);
  }

  lemma ModShift(a: int, k: int)
    ensures (a - k * TwoTo32) % TwoTo32 == a % TwoTo32
  {
    var q := a / TwoTo32;
    assert a - k * TwoTo32 == (q - k) * TwoTo32 + a % TwoTo32;
  }

  // ---------------------------------------------------------------------------------------------
  // The counter

  datatype Summator = Summator(count: Int32)

  /** A new instance (the engine's constructor binding) starts at zero. */
  function New(): (s: Summator)
    ensures s.count == 0
  {
    Summator(0)
  }

  /** `Add` increases the count by `value`, one by default, with C#'s unchecked wrap-around: the
      result differs from the exact sum by a multiple of 2^32 and equals it whenever it fits. */
  function Add(s: Summator, value: Int32 := 1): (r: Summator)
    ensures (r.count - (s.count + value)) % TwoTo32 == 0
    ensures -TwoTo31 <= s.count + value < TwoTo31 ==> r.count == s.count + value
  {
    Summator(Wrap32(s.count + value))
  }

  function Reset(s: Summator): (r: Summator)
    ensures r.count == 0 && r == New()
  {
    Summator(0)
  }

  function GetTotal(s: Summator): (total: Int32)
    ensures total == s.count
  {
    s.count
  }

  /** A call made on an instance from the engine; `AddCall(None)` leaves the argument to its
      declared default. */
  datatype Call = AddCall(argument: Option<Int32>) | ResetCall | GetTotalCall

  /** One call: its effect on the instance and the value it returns, if any. Only `GetTotal`
      returns, and it leaves the instance as it was. */
  function Invoke(s: Summator, call: Call): (r: (Summator, Option<Int32>))
    ensures call.GetTotalCall? ==> r.0 == s && r.1 == Some(s.count)
    ensures !call.GetTotalCall? ==> r.1 == None
    ensures call.ResetCall? ==> r.0.count == 0
    ensures call == AddCall(None) ==> r.0 == Add(s, 1)
  {
    match call
    case AddCall(argument) =>
      (match argument
       case Some(v) => (Add(s, v), None)
       case None => (Add(s), None))
    case ResetCall => (Reset(s), None)
    case GetTotalCall => (s, Some(GetTotal(s)))
  }

  /** The instance after a sequence of calls. */
  function Final(s: Summator, calls: seq<Call>): Summator
    decreases |calls|
  {
    if calls == [] then s else Invoke(Final(s, calls[..|calls| - 1]), calls[|calls| - 1]).0
  }

  /** The values a sequence of calls returns, in order. */
  function Outputs(s: Summator, calls: seq<Call>): seq<Int32>
    decreases |calls|
  {
    if calls == [] then []
    else
      var last := Invoke(Final(s, calls[..|calls| - 1]), calls[|calls| - 1]).1;
      Outputs(s, calls[..|calls| - 1]) + (if last.Some? then [last.value] else [])
  }

  /** The reference meaning of the counter: the exact sum of the values added since the last
      reset (or since creation), each defaulted argument counting as one. */
  function SumSinceReset(calls: seq<Call>): int
    decreases |calls|
  {
    if calls == [] then 0
    else
      match calls[|calls| - 1]
      case AddCall(argument) => SumSinceReset(calls[..|calls| - 1]) + argument.GetOr(1)
      case ResetCall => 0
      case GetTotalCall => SumSinceReset(calls[..|calls| - 1])
  }

  /** After any sequence of calls on a new instance, the count is the sum added since the last
      reset, wrapped to 32 bits; in particular it is that exact sum whenever the sum fits. */
  lemma {:induction false} CountIsSumSinceReset(calls: seq<Call>)
    ensures Final(New(), calls).count == Wrap32(SumSinceReset(calls))
    ensures -TwoTo31 <= SumSinceReset(calls) < TwoTo31 ==> Final(New(), calls).count == SumSinceReset(calls)
    decreases |calls|
  {
    if calls != [] {
      var init := calls[..|calls| - 1];
      CountIsSumSinceReset(init);
      match calls[|calls| - 1] {
        case AddCall(argument) =>
          Wrap32Add(SumSinceReset(init), argument.GetOr(1));
        case ResetCall =>
        case GetTotalCall =>
      }
    }
  }

  /** The sample's usage: `Add()`, `Add(5)` and `GetTotal()` read 6; then `Reset()` and
      `GetTotal()` read 0. */
  lemma SampleSession()
    ensures Outputs(New(), [AddCall(None), AddCall(Some(5)), GetTotalCall, ResetCall, GetTotalCall]) == [6, 0]
  {
    var calls := [AddCall(None), AddCall(Some(5)), GetTotalCall, ResetCall, GetTotalCall];
    assert calls[..1][..0] == [];
    assert Final(New(), calls[..1]).count == 1;
    assert Outputs(New(), calls[..1]) == [];
    assert calls[..2][..1] == calls[..1];
    assert Final(New(), calls[..2]).count == 6;
    assert Outputs(New(), calls[..2]) == [];
    assert calls[..3][..2] == calls[..2];
    assert Outputs(New(), calls[..3]) == [6];
    assert calls[..4][..3] == calls[..3];
    assert Final(New(), calls[..4]).count == 0;
    assert Outputs(New(), calls[..4]) == [6];
    assert calls[..4] == calls[..|calls| - 1];
  }

  // ---------------------------------------------------------------------------------------------
  // Registration

  /** A C# `int` crosses to the engine as a 32-bit `Int` variant. */
  const IntMarshal: MarshalInfo := MarshalInfo("int", "Int", Some("Int32"), None, "", None, "")

  const AddMethod: MethodSpec :=
    MethodSpec("Add", "", false, false, [ParamSpec("value", "", IntMarshal, Some("1"))], None)
  const ResetMethod: MethodSpec := MethodSpec("Reset", "", false, false, [], None)
  const GetTotalMethod: MethodSpec :=
    MethodSpec("GetTotal", "", false, false, [], Some(ParamSpec("", "", IntMarshal, None)))

  /** What the symbol analysis would find on the class: a public parameterless constructor and
      three non-virtual instance methods, no properties and no signals. */
  const SummatorSpec: ClassSpec := ClassSpec(
    "GDExtensionSummator", [], "Summator", "global::Godot.RefCounted",
    Some(ConstructorSpec("")), [AddMethod, ResetMethod, GetTotalMethod], [], [])

  /** The registrations the sample's own `BindMethods` performs, in its order; its lambdas name the
      receiver `instance` and the parameter `value`. */
  function HandWrittenBindings(): (r: seq<BindOp>)
    ensures |r| == 4 && r[0] == BindConstructor("Summator", NewInstance)
    ensures forall i :: 1 <= i < |r| ==> r[i].BindMethod? && r[i].dispatch == Instance && r[i].thunk.Some?
  {
    [ BindConstructor("Summator", NewInstance),
      BindMethod(Instance, "Add", [], [ParameterInfo("value", "Int", Some("Int32"), Some("1"), [])], None,
                 Some(Thunk(["Summator instance", "int value"], false, "instance", "Add", ["value"]))),
      BindMethod(Instance, "Reset", [], [], None,
                 Some(Thunk(["Summator instance"], false, "instance", "Reset", []))),
      BindMethod(Instance, "GetTotal", [], [], Some(ReturnInfo("Int", Some("Int32"), [])),
                 Some(Thunk(["Summator instance"], true, "instance", "GetTotal", []))) ]
  }

  /** The generated thunk and a hand-written lambda agree on arity, on the method they forward to
      and on whether they return a value. */
  predicate SameShape(generated: Thunk, written: Thunk)
  {
    && |generated.parameters| == |written.parameters|
    && |generated.arguments| == |written.arguments|
    && generated.methodName == written.methodName
    && generated.returnsValue == written.returnsValue
  }

  /** What the generator makes of one of the sample's methods agrees with the sample's own binding
      of it, up to the spelling of the lambda, whose shape agrees as well. */
  predicate BindsLike(generated: BindOp, written: BindOp)
  {
    && WithoutThunk(generated) == WithoutThunk(written)
    && generated.BindMethod? && written.BindMethod? && generated.thunk.Some? && written.thunk.Some?
    && SameShape(generated.thunk.value, written.thunk.value)
  }

  lemma AddBindsLike()
    ensures ValidMethod(AddMethod) && BindsLike(MethodOp("Summator", AddMethod), HandWrittenBindings()[1])
  {
    assert ParameterInfoOf(AddMethod.parameters[0]) == ParameterInfo("value", "Int", Some("Int32"), Some("1"), []);
    assert ParameterInfos(AddMethod.parameters) == [ParameterInfo("value", "Int", Some("Int32"), Some("1"), [])];
  }

  lemma ResetBindsLike()
    ensures ValidMethod(ResetMethod) && BindsLike(MethodOp("Summator", ResetMethod), HandWrittenBindings()[2])
  {
    assert ParameterInfos(ResetMethod.parameters) == [];
  }

  lemma GetTotalBindsLike()
    ensures ValidMethod(GetTotalMethod) && BindsLike(MethodOp("Summator", GetTotalMethod), HandWrittenBindings()[3])
  {
    assert ParameterInfos(GetTotalMethod.parameters) == [];
    assert ReturnInfoOf(GetTotalMethod.returnParameter.value) == ReturnInfo("Int", Some("Int32"), []);
  }

  /** No method of the class is both static and virtual. */
  lemma SummatorIsValid()
    ensures ValidSpec(SummatorSpec)
  {
    assert ValidMethod(AddMethod) && ValidMethod(ResetMethod) && ValidMethod(GetTotalMethod);
  }

  /** The class's methods in declaration order. */
  lemma SummatorMethodOps()
    ensures ValidSpec(SummatorSpec)
    ensures MethodOps(SummatorSpec) == [MethodOp("Summator", AddMethod), MethodOp("Summator", ResetMethod),
                                        MethodOp("Summator", GetTotalMethod)]
  {
    SummatorIsValid();
  }

  /** A class with a parameterless constructor and neither properties nor signals registers its
      constructor and then its methods. */
  lemma CallOpsOfPlainClass(spec: ClassSpec)
    requires ValidSpec(spec)
    requires spec.ctor == Some(ConstructorSpec("")) && spec.properties == [] && spec.signals == []
    ensures CallOps(spec) == [BindConstructor(spec.symbolName, NewInstance)] + MethodOps(spec)
  {
    var ctor := ConstructorOps(spec);
    var methods := MethodOps(spec);
    assert PropertyOps(spec) == [] && SignalOps(spec) == [];
    assert ctor + methods + [] + [] == ctor + methods;
  }

  lemma ConsOntoThree<T>(x: T, xs: seq<T>, a: T, b: T, c: T)
    requires xs == [a, b, c]
    ensures [x] + xs == [x, a, b, c]
  {
  }

  /** The generator's calls for the class: the constructor, then `Add`, `Reset` and `GetTotal` in
      declaration order; the class has no properties and no signals. */
  lemma SummatorCallOps()
    ensures ValidSpec(SummatorSpec)
    ensures CallOps(SummatorSpec) == [BindConstructor("Summator", NewInstance), MethodOp("Summator", AddMethod),
                                      MethodOp("Summator", ResetMethod), MethodOp("Summator", GetTotalMethod)]
  {
    SummatorMethodOps();
    CallOpsOfPlainClass(SummatorSpec);
    ConsOntoThree(BindConstructor("Summator", NewInstance), MethodOps(SummatorSpec), MethodOp("Summator", AddMethod),
                  MethodOp("Summator", ResetMethod), MethodOp("Summator", GetTotalMethod));
  }

  /** The sample's hand-written `BindMethods` registers what the generator would register for the
      class, compared as registrations rather than as text: the same constructor, then `Add` with
      one 32-bit integer parameter `value` defaulting to 1, `Reset` with neither parameters nor
      return, and `GetTotal` returning a 32-bit integer, all bound as instance methods through a
      lambda of the same arity. The text differs: the sample names each method with
      `new StringName(nameof(...))` and its parameter with `new StringName("value")` where the
      generator uses its cached `MethodName` class and `StringName.CreateStaticFromAscii`, its
      `BindMethods` takes a `ClassRegistrationContext`, and its lambdas name the receiver
      `instance` rather than `__instance`. */
  lemma HandWrittenMatchesGenerated()
    ensures ValidSpec(SummatorSpec)
    ensures |CallOps(SummatorSpec)| == |HandWrittenBindings()| == 4
    ensures CallOps(SummatorSpec)[0] == HandWrittenBindings()[0]
    ensures forall i :: 1 <= i < 4 ==> BindsLike(CallOps(SummatorSpec)[i], HandWrittenBindings()[i])
  {
    SummatorCallOps();
    AddBindsLike();
    ResetBindsLike();
    GetTotalBindsLike();
    var ops := CallOps(SummatorSpec);
    forall i | 1 <= i < 4
      ensures BindsLike(ops[i], HandWrittenBindings()[i])
    {
      if i == 1 {
      } else if i == 2 {
      } else {
        assert i == 3;
      }
    }
  }
}

=== FILE: text.dfy ===
/** Token lists and the two ways the generator turns them into comma-separated text. */
module Text {

  /** The reference rendering of a token list: the tokens with `sep` between neighbours. */
  function Join(parts: seq<string>, sep: string): string
  {
    if |parts| == 0 then ""
    else if |parts| == 1 then parts[0]
    else parts[0] + sep + Join(parts[1..], sep)
  }

  /** Renders every element of `xs` with `render`, keeping the order. */
  function RenderEach<T>(xs: seq<T>, render: T -> string): (r: seq<string>)
    ensures |r| == |xs|
    ensures forall i :: 0 <= i < |xs| ==> r[i] == render(xs[i])
  {
    seq(|xs|, i requires 0 <= i < |xs| => render(xs[i]))
  }

  /** The generator's own loop shape: each element is rendered and followed by `sep` when it is not
      the last one, or when `trailing` says that something else still follows the list
      (`if (hasMore || i < count - 1) sb.Append(", ")`). */
  function SeparatedLoop<T>(xs: seq<T>, render: T -> string, sep: string, trailing: bool): string
  {
    if |xs| == 0 then ""
    else render(xs[0]) + (if trailing || |xs| > 1 then sep else "") + SeparatedLoop(xs[1..], render, sep, trailing)
  }

  /** Joining a non-empty prefix with a non-empty suffix puts exactly one separator at the seam. */
  lemma {:induction false} JoinAppend(a: seq<string>, b: seq<string>, sep: string)
    requires |a| > 0 && |b| > 0
    ensures Join(a + b, sep) == Join(a, sep) + sep + Join(b, sep)
  {
    if |a| == 1 {
      assert a + b == [a[0]] + b;
      assert (a + b)[1..] == b;
    } else {
      assert (a + b)[1..] == a[1..] + b;
      JoinAppend(a[1..], b, sep);
    }
  }

  /** The loop written in the generator and the reference `Join` produce the same text: with no
      trailing list the loop is exactly `Join`, and with one it is `Join` up to the seam, whose
      separator the loop has already written. */
  lemma {:induction false} SeparatedLoopIsJoin<T>(xs: seq<T>, render: T -> string, sep: string, tail: seq<string>)
    ensures Join(RenderEach(xs, render) + tail, sep)
         == SeparatedLoop(xs, render, sep, |tail| > 0) + Join(tail, sep)
  {
    if |xs| == 0 {
      assert RenderEach(xs, render) + tail == tail;
    } else {
      var rest := RenderEach(xs[1..], render) + tail;
      assert RenderEach(xs, render) + tail == [render(xs[0])] + rest;
      SeparatedLoopIsJoin(xs[1..], render, sep, tail);
      if |rest| == 0 {
        assert [render(xs[0])] + rest == [render(xs[0])];
      } else {
        assert ([render(xs[0])] + rest)[1..] == rest;
      }
    }
  }

  // ---------------------------------------------------------------------------------------------
  // Rewriting aids: small facts about sequences, called as proof hints where the verifier would
  // otherwise have to search for them. They model nothing in the generator.

  /** Regrouping a concatenation. Stated once for the proofs that compare text appended piece by
      piece with text grouped by meaning. */
  lemma AppendAssoc<T>(a: seq<T>, b: seq<T>, c: seq<T>)
    ensures a + (b + c) == a + b + c
  {
  }

  /** The empty sequence is a unit of concatenation on both sides. */
  lemma AppendEmpty<T>(s: seq<T>)
    ensures [] + s == s && s + [] == s
  {
  }

  /** A prefix extended by the next element is the next longer prefix. */
  lemma TakeSnoc<T>(s: seq<T>, i: int)
    requires 0 <= i < |s|
    ensures s[..i] + [s[i]] == s[..i + 1]
  {
  }

  /** Appending two elements one at a time appends them together. */
  lemma AppendTwoSingles<T>(s: seq<T>, a: T, b: T)
    ensures s + [a] + [b] == s + [a, b]
  {
  }

  /** Appending four elements one at a time appends them together. */
  lemma AppendFourSingles<T>(s: seq<T>, a: T, b: T, c: T, d: T)
    ensures s + [a] + [b] + [c] + [d] == s + [a, b, c, d]
  {
  }

  /** Being a prefix is transitive. */
  lemma PrefixTrans<T>(a: seq<T>, b: seq<T>, c: seq<T>)
    requires a <= b && b <= c
    ensures a <= c
  {
  }

  /** Four pieces appended one after another to `start` are their concatenation appended at once. */
  lemma AppendFour<T>(start: seq<T>, p: seq<T>, h: seq<T>, c: seq<T>, z: seq<T>,
                      a1: seq<T>, a2: seq<T>, a3: seq<T>, end: seq<T>)
    requires a1 == start + p && a2 == a1 + h && a3 == a2 + c && end == a3 + z
    ensures end == start + (p + h + c + z)
  {
    AppendAssoc(start, p + h + c, z);
    AppendAssoc(start, p + h, c);
    AppendAssoc(start, p, h);
  }
}

=== FILE: wrappers.dfy ===
/** Optional values, used for the nullable fields and the absent members of a class spec. */
module Wrappers {

  /** `None` stands for a C# `null` (or for an enumeration's `None` member where the source treats
      that member as "not set"). */
  datatype Option<+T> = None | Some(value: T) {

    /** The value held, or `default` when there is none (the C# `??` operator). */
    function GetOr(default: T): T {
      match this
      case Some(v) => v
      case None => default
    }
  }
}
